=== FILE: README.md ===
# Foodgram core in Dafny

Foodgram is a recipe-sharing REST backend. Users publish recipes (name, image, description, tags, ingredients with amounts, cooking time), keep favorites and a shopping cart, download the cart as a summed shopping list, and follow other authors. This project models the part of the backend with real behaviour as pure functions over an immutable database value.

Every table is a sequence of rows (`Models.Db`). Every request is a function from the database and the request's parameters to a status and the database after the request. The invariants the models declare are predicates (`Models.Wellformed`). Lemmas show which operations preserve them, and under what condition.

Modules, one per component of the backend:

- `Common`: `Option`, `Result` (usable with `:-`), the HTTP statuses the views answer with, and the caller (anonymous or a user id).
- `Rows`: generic table helpers. They cover filtering, deletion and the no-duplicate-rows invariant of a unique constraint.
- `Models`: the entities of backend/recipes/models.py, their declared bounds and unique keys, and the newest-first default ordering.
- `Toggle`: the `add_to` / `delete_from` actions shared by favorites and the shopping cart.
- `ShoppingList`: the aggregation of `download_shopping_cart`.
- `RecipeWrite`: tag and ingredient validation, `add_ingredients`, `create` and `update` of RecipeCreateUpdateSerializer.
- `RecipeRead`: the caller-relative `is_favorited` / `is_in_shopping_cart` flags.
- `Filters`: RecipeFilter and IngredientFilter.
- `Subscriptions`: `subscribe` (POST/DELETE), `subscriptions`, and the author projection with `is_subscribed`, `recipes` cut to `recipes_limit`, and `recipes_count`.

External inputs are parameters:

- The request time is `now` in `RecipeWrite.Create`.
- The outcome of the subscription serializer's validation of the request body (the author's profile fields) is `bodyValid` in `Subscriptions.Subscribe`.
- The `recipes_limit` query parameter is a `Subscriptions.LimitParam`.
- Image decoding and storage are reduced to a stored image reference string.

Behaviour of the code that is easy to misread; the model follows the code:

- A user may follow themself, and may follow the same author twice. The Subscription table has no visible unique constraint. A second follow row makes the later DELETE fail with 500 (`Subscriptions.DoubleSubscribeBlocksUnsubscribe`).
- The shopping list has no order. The code applies none, so no line order is claimed.
- An ingredient id that does not exist makes the bulk insert fail its foreign key. The atomic transaction rolls back and the answer is a server error (500), not 404.
- Ingredient amounts are not checked on write. `RecipeWrite.Create` and `RecipeWrite.Update` with `bounded` false are the code as written. The amount column is a positive-integer column, so the database refuses a negative amount: the insert fails, the transaction rolls back and the answer is 500 (`RecipeWrite.NegativeAmountFailsInsert`). Every amount from 0 up is stored, and the result breaks the declared bound 1..10000 exactly when some amount lies outside it (`RecipeWrite.CreateKeepsWellformed`, `RecipeWrite.UpdateKeepsWellformed`, `RecipeWrite.CreateStoresOutOfRangeAmount`). With `bounded` true they also refuse such an amount with 400; this is the correction listed under Findings.
- The recipe's `name` and `text` come from model columns without `blank=True`, so the serializer's text fields refuse a value that is empty or only whitespace (400), refuse a NUL character, strip leading and trailing whitespace before storing, and check the name's `max_length` of 200 on the stripped value (`RecipeWrite.CleanText`).

## Model

| member | source | states |
|---|---|---|
| Models.FindRecipe | backend/api/views.py:86 | a found recipe is a row of the table with the requested id; nothing is found exactly when no row has that id |
| Models.NameUnitIsKey | backend/recipes/models.py:60-64 | under the `unique_name_unit` constraint, two ingredient rows with the same name and unit are the same row |
| Models.InsertByDate | backend/recipes/models.py:124 | inserting a recipe into a newest-first listing keeps it newest first and adds exactly that recipe |
| Models.NewestFirst | backend/recipes/models.py:124 | the default listing holds exactly the table's recipes and puts later publication dates first |
| Models.FilterKeepsNewestFirst | backend/recipes/models.py:124 | narrowing a newest-first listing by any condition keeps it newest first |
| Rows.Remove | backend/api/views.py:92-94 | deleting a pair's rows removes every row of that pair and keeps every other row with its multiplicity |
| Rows.Filter | backend/api/filters.py:34-48 | a queryset filter keeps exactly the rows satisfying the condition, each with its multiplicity |
| Rows.FilterConcat | backend/api/filters.py:34-48 | filtering a table is filtering its first part followed by filtering the rest, so the kept rows stay in the input's order |
| Rows.RemoveAppended | backend/api/views.py:80-99 | appending an absent row and then deleting it gives back the original table |
| Rows.AppendKeepsNoDuplicates | backend/recipes/models.py:194-198 | inserting a row that is not yet present keeps the table free of duplicate rows |
| Rows.RemoveKeepsNoDuplicates | backend/recipes/models.py:230-234 | deleting a row keeps the table free of duplicate rows |
| Rows.DistinctIffCardinality | backend/api/serializers.py:74-75 | a list has as many distinct elements as entries exactly when no element repeats |
| Rows.NoDuplicatesPairwise | backend/api/serializers.py:74-75 | a list has no repeated element exactly when any two positions hold different elements |
| Rows.FilterPermutation | backend/users/serializers.py:65-66 | filtering two orderings of the same rows yields equally many rows, so a count does not depend on the order of the table |
| Toggle.Short | backend/api/serializers.py:162-168 | the short projection carries the recipe's id, name, image and cooking time |
| Toggle.ShortAgreement | backend/api/serializers.py:162-168 | two recipes have the same short projection exactly when they agree on those four fields |
| Toggle.AddTo | backend/api/views.py:80-89 | an existing pair gives 400 and an unknown recipe gives 404, both with nothing changed; otherwise 201 inserts exactly the pair, leaves every other pair and every other table as it was, and returns the recipe's short projection |
| Toggle.DeleteFrom | backend/api/views.py:91-99 | an absent pair gives 400 with nothing changed; otherwise 204 removes the pair and leaves every other pair and table as it was |
| Toggle.Dispatch | backend/api/views.py:63-78 | POST never answers 204 and DELETE answers only 204 or 400; a refused request changes nothing |
| Toggle.AddTwiceRejected | backend/api/views.py:81-85 | a second identical add is refused, so the pair cannot be stored twice |
| Toggle.AddThenRemoveRestores | backend/api/views.py:80-99 | adding an absent pair and then removing it restores the database exactly |
| Toggle.SecondRemoveRejected | backend/api/views.py:91-99 | add, remove, remove: the first remove succeeds and the second is refused |
| Toggle.AddKeepsWellformed | backend/recipes/models.py:194-198 | a successful add by an existing user keeps every declared invariant, including the (user, recipe) unique constraint |
| Toggle.DeleteKeepsWellformed | backend/recipes/models.py:230-234 | a remove keeps every declared invariant and, under the unique constraint, deletes exactly one row |
| ShoppingList.CartedRecipes | backend/api/views.py:104-109 | a recipe is carted for the user exactly when the user's cart row for it exists, and none is carted exactly when the user has no cart row |
| ShoppingList.CartItems | backend/api/views.py:107-111 | every joined item comes from a through row of a carted recipe and carries its ingredient's name, unit and amount; conversely every through row of a carted recipe whose ingredient exists yields its item |
| ShoppingList.CartItemsCount | backend/api/views.py:107-111 | the join yields exactly as many items as there are through rows of carted recipes whose ingredient exists |
| ShoppingList.Bump | backend/api/views.py:111-112 | adding one item to the running groups raises its key's total by its amount, adds its key, and keeps keys distinct |
| ShoppingList.Group | backend/api/views.py:111-112 | grouping yields each (name, unit) key once, exactly the keys of the items, each with the sum of its items' amounts |
| ShoppingList.LookupFindsEachLine | backend/api/views.py:111-112 | with distinct keys, looking a line's key up finds that line's total |
| ShoppingList.DownloadShoppingCart | backend/api/views.py:102-113 | a user with nothing in the cart gets 400; otherwise the list has each key of the carted recipes' rows once, each total is the sum over that key, and the totals add up to all the rows' amounts |
| ShoppingList.TotalConcat | backend/api/views.py:112 | the sum for a key over two batches of rows is the sum of the two sums |
| ShoppingList.TotalPermutation | backend/api/views.py:112 | the sum for a key does not depend on the order of the rows |
| ShoppingList.GroupOrderIrrelevant | backend/api/views.py:111-112 | grouping the same rows in any order gives the same keys and totals |
| ShoppingList.CartOrderIrrelevant | backend/api/views.py:102-113 | any rearrangement of the cart table gives the same shopping list |
| ShoppingList.TotalAtLeastOne | backend/recipes/models.py:152-158 | when every amount is at least 1, a key that occurs has a total of at least 1 |
| ShoppingList.ListedTotalsPositive | backend/recipes/models.py:152-158 | in a well-formed database every line of the list has a total of at least 1 |
| ShoppingList.FlourAndSugarExample | backend/api/views.py:102-113 | a cart of 200 g flour and of 300 g flour with 50 g sugar lists 500 g flour and 50 g sugar, two lines |
| RecipeWrite.ValidateTags | backend/api/serializers.py:55-68 | tags are accepted exactly when every id names a tag and the list is non-empty; an empty list is refused; the accepted set is the payload's tags |
| RecipeWrite.ValidateIngredients | backend/api/serializers.py:70-80 | the list is accepted exactly when it is non-empty and its ids are pairwise distinct, and is then returned unchanged |
| RecipeWrite.AmountBoundNotEnforced | backend/api/serializers.py:40-48 | the validation as written accepts an amount of 10001, above the declared maximum, and the corrected validation refuses it |
| RecipeWrite.ValidateIngredientsChecked | backend/recipes/models.py:152-158 | the list is accepted exactly when it is non-empty, its ids are distinct and every amount lies in 1..10000 |
| RecipeWrite.Strip | backend/recipes/models.py:92-100 | the stored text has no whitespace at either end, and is empty exactly when the value is all whitespace |
| RecipeWrite.StripDecomposes | backend/recipes/models.py:92-100 | the value is the stripped text with only whitespace before and after it |
| RecipeWrite.StripUnique | backend/recipes/models.py:92-100 | whitespace around a text without whitespace at its ends is exactly what stripping removes, so stripping is determined by the two facts above |
| RecipeWrite.StripIdempotent | backend/recipes/models.py:92-100 | stripping a stripped text changes nothing |
| RecipeWrite.CleanText | backend/recipes/models.py:92-100 | a `name` or `text` value is accepted exactly when it is not all whitespace, holds no NUL and, for the name, is at most 200 characters once stripped; a refusal is a 400 and an all-whitespace value is refused as blank; the accepted value is stored stripped, non-empty |
| RecipeWrite.CleanTextIdempotent | backend/recipes/models.py:92-100 | a stored name or text sent again is accepted and stored unchanged |
| RecipeWrite.CleanOptionalText | backend/recipes/models.py:92-100 | an absent field stays absent, a present one is accepted exactly when it is valid and becomes its stripped value |
| RecipeWrite.CleanTextExample | backend/recipes/models.py:92-96 | " Pie\n" is stored as "Pie", and a name of a space and a tab is refused as blank |
| RecipeWrite.CreateRefusesBlankName | backend/recipes/models.py:92-96 | a complete create payload whose name is only whitespace is refused as blank, whatever its other fields |
| RecipeWrite.CheckInsert | backend/recipes/models.py:140-158 | the bulk insert succeeds exactly when every amount is at least 0 and every ingredient exists, and otherwise answers 500 |
| RecipeWrite.NegativeAmountFailsInsert | backend/recipes/models.py:152 | an amount of -1 passes the as-written validation and fails the insert's column check, so the create answers 500 |
| RecipeWrite.AddIngredients | backend/api/serializers.py:82-92 | one through row per payload item, in order, each with the item's ingredient id and amount, all attached to the recipe |
| RecipeWrite.AddedRowsFromPayload | backend/api/serializers.py:82-92 | every row written belongs to the recipe and carries an (ingredient, amount) pair of the payload |
| RecipeWrite.PayloadRowsAdded | backend/api/serializers.py:82-92 | conversely, every payload item gets a row of the recipe with the item's ingredient and amount, whatever the amount |
| RecipeWrite.PayloadRoundTrip | backend/api/serializers.py:82-92 | reading the rows written for a payload back gives the payload |
| RecipeWrite.ClearRows | backend/api/serializers.py:110 | clearing removes every through row of the recipe and keeps every other row with its multiplicity |
| RecipeWrite.RowsOfCleared | backend/api/serializers.py:110 | clearing a recipe's rows leaves it none and leaves every other recipe's rows as they were |
| RecipeWrite.ReplacedRows | backend/api/serializers.py:108-111 | clearing and re-adding a recipe's rows reads back as the new payload and leaves every other recipe's rows as they were |
| RecipeWrite.FreshRecipeId | backend/api/serializers.py:100 | the new recipe's id is used by no recipe and no through row |
| RecipeWrite.ValidateCreate | backend/api/serializers.py:51-80 | a create payload is accepted exactly when it is complete, the name and text are non-blank (the name at most 200 characters once stripped), every other field is valid and the insert accepts the rows; a field error is a 400, and a negative amount or an unknown ingredient with valid fields is a 500; the validated name and text are the stripped values; the 1..10000 bound is checked only when `bounded` |
| RecipeWrite.InsertRecipe | backend/api/serializers.py:100-103 | the recipe row is appended, its rows read back as the items, every other recipe's rows and every other table stay as they were |
| RecipeWrite.Create | backend/api/serializers.py:94-104 | create succeeds exactly on a valid payload, and otherwise answers 400 for a field error or 500 for a negative amount or an unknown ingredient; on success the recipe has a fresh id, the requesting user as author, the payload's name and text stripped (non-empty, the name within 200 characters), its image and cooking time, exactly the payload's tags and one row per ingredient item with its amount as given, and nothing else in the database changes |
| RecipeWrite.ReplaceRecipe | backend/api/serializers.py:114 | the updated row replaces the row with its id, and every other row and every id stays in place |
| RecipeWrite.ValidateUpdate | backend/api/serializers.py:51-80 | an update payload is accepted exactly when each present field is valid (a present name or text non-blank), the insert accepts present rows and, for a full update, every field is present; a field error is a 400, and a negative amount or an unknown ingredient a 500; a present name or text is validated to its stripped value; the 1..10000 bound is checked only when `bounded` |
| RecipeWrite.ReplaceRows | backend/api/serializers.py:108-111 | present ingredients replace the recipe's rows wholesale and absent ones leave the table untouched; other recipes' rows never change |
| RecipeWrite.Update | backend/api/serializers.py:106-114 | an unknown id gives 404, a field error 400, and a negative amount or an unknown ingredient 500; otherwise update succeeds; present tags and ingredients are replaced wholesale, with every item's amount as given, a present name or text overwrites with its stripped value, a present image or cooking time overwrites, absent ones stay, and the author and the publication date stay |
| RecipeWrite.WrittenRowsWellformed | backend/recipes/models.py:152-158 | after a write whose new through rows are exactly the payload's, the through rows meet their declared bounds exactly when every payload amount does |
| RecipeWrite.CreateKeepsWellformed | backend/api/serializers.py:94-104 | a successful create by an existing user keeps every declared invariant exactly when the payload's amounts lie in 1..10000, and always when `bounded` |
| RecipeWrite.CreateStoresOutOfRangeAmount | backend/api/serializers.py:44 | on a well-formed database, the create as written accepts an amount of 10001 and leaves a database that breaks the amount bound; the bounded create refuses it |
| RecipeWrite.UpdateKeepsWellformed | backend/api/serializers.py:106-114 | a successful update keeps every declared invariant exactly when a present ingredient list's amounts lie in 1..10000, and always when `bounded` |
| RecipeRead.Marked | backend/api/serializers.py:149-159 | the flag is false for an anonymous caller and otherwise says whether the caller has a row for the recipe in the table |
| RecipeRead.IsFavorited | backend/api/serializers.py:149-153 | `is_favorited` is false for an anonymous caller and otherwise true exactly when the favorite pair exists |
| RecipeRead.IsInShoppingCart | backend/api/serializers.py:155-159 | `is_in_shopping_cart` is false for an anonymous caller and otherwise true exactly when the cart pair exists |
| RecipeRead.ToggleSetsFlag | backend/api/views.py:80-99 | a successful add sets the flag for that recipe, a successful remove clears it, and no other recipe's flag moves |
| RecipeRead.FavoritedFilterMatchesFlag | backend/api/filters.py:34-40 | for a signed-in caller the `is_favorited` filter keeps exactly the recipes whose flag is true; for an anonymous one it keeps all |
| RecipeRead.CartFilterMatchesFlag | backend/api/filters.py:42-48 | for a signed-in caller the `is_in_shopping_cart` filter keeps exactly the recipes whose flag is true; for an anonymous one it keeps all |
| Filters.FilterIsFavorited | backend/api/filters.py:34-40 | with a true value and a signed-in caller, exactly the input recipes the caller favorited; otherwise the queryset unchanged; always a sub-multiset of the input |
| Filters.FilterIsInShoppingCart | backend/api/filters.py:42-48 | with a true value and a signed-in caller, exactly the input recipes in the caller's cart; otherwise the queryset unchanged; always a sub-multiset of the input |
| Filters.FilterAuthor | backend/api/filters.py:19 | exactly the input recipes whose author id matches; no value leaves the queryset unchanged |
| Filters.FilterTags | backend/api/filters.py:20-24 | an unknown slug gives 400; no slug leaves the queryset unchanged; otherwise exactly the input recipes with at least one tag among the slugs |
| Filters.FilterRecipes | backend/api/filters.py:16-48 | the query fails exactly on an unknown slug; otherwise it keeps exactly the input recipes passing all four filters |
| Filters.ListRecipes | backend/recipes/models.py:124 | the filtered listing holds exactly the table's recipes that pass the query |
| Filters.ListRecipesNewestFirst | backend/recipes/models.py:124 | the filtered listing is newest first |
| Filters.FilterIngredientName | backend/api/filters.py:9 | exactly the ingredients whose name starts with the given text; no value leaves the list unchanged |
| Subscriptions.IsSubscribed | backend/users/serializers.py:24-28 | `is_subscribed` is false for an anonymous caller and otherwise true exactly when the caller follows the author |
| Subscriptions.AuthorRecipes | backend/users/serializers.py:49 | exactly the author's recipes, newest first |
| Subscriptions.RecipesCount | backend/users/serializers.py:65-66 | the count over the unordered table equals the number of the author's recipes in the listing, and is zero exactly when the author has none |
| Subscriptions.Truncate | backend/users/serializers.py:51-53 | an unusable limit fails with 500; otherwise the result is a prefix of the recipes of length min(limit, count), or all of them without a limit |
| Subscriptions.SubscriptionView | backend/users/serializers.py:48-66 | the projection carries the author's id and `is_subscribed`, a prefix of the author's newest-first recipes cut to the limit (all without one, none for an author without recipes), and the full count |
| Subscriptions.CountIgnoresLimit | backend/users/serializers.py:65-66 | two projections differing only in `recipes_limit` report the same count |
| Subscriptions.Subscribe | backend/users/views.py:21-32 | an unknown author gives 404 and an invalid body 400, both with nothing changed; otherwise one follow row is inserted and 201 returns the author with `is_subscribed` true, or 500 if the projection fails, with the row kept |
| Subscriptions.Unsubscribe | backend/users/views.py:34-39 | an unknown author or no follow row gives 404; exactly one row is deleted with 204; several rows give 500 with nothing deleted |
| Subscriptions.Dispatch | backend/users/views.py:21-39 | POST never answers 204 and DELETE never 201 or 400; a 400 or 404 changes nothing |
| Subscriptions.FollowedAuthors | backend/users/views.py:44 | the listed ids are exactly the existing users the caller follows |
| Subscriptions.Views | backend/users/views.py:46-48 | one projection per author, in order; the page fails only when some author is listed and the limit is unusable |
| Subscriptions.ListSubscriptions | backend/users/views.py:41-49 | one projection per follow row, in order, each with `is_subscribed` true |
| Subscriptions.ListedAuthorsAreFollowed | backend/users/views.py:44 | an author appears in `subscriptions` exactly when the caller follows them |
| Subscriptions.SubscribeThenFollowed | backend/users/views.py:21-39 | after a successful POST the caller follows the author; after a successful DELETE they do not |
| Subscriptions.SubscribeThenUnsubscribeRestores | backend/users/views.py:21-39 | following a not-yet-followed author and then unfollowing restores the database exactly |
| Subscriptions.DoubleSubscribeBlocksUnsubscribe | backend/users/views.py:31-38 | two POSTs for the same pair both succeed, and the DELETE then fails with 500 and leaves both rows |
| Subscriptions.DispatchKeepsWellformed | backend/users/views.py:21-39 | both verbs keep every declared invariant when the caller is a user |

## Left out

- Shopping-list text rendering (backend/api/views.py:115-131): the header, per-line text, date footer, file name and HTTP response are output formatting. Line 119 reads a key the grouping at line 111 never produces, and the lookup at line 109 names `shopping_cart`, which is the cart's reverse name on User (backend/recipes/models.py:216), not on Recipe, whose reverse name from the cart is `in_shopping_cart` (backend/recipes/models.py:222). The model takes the intended reading: the through rows of the recipes in the user's cart, grouped by (name, unit) and summed.
- ShoppingList.DownloadShoppingCart: no order of the lines is stated, because the code applies none.
- Subscription uniqueness and self-follow rejection: the Subscription model is not defined in backend/users/models.py, so no constraint is assumed; `Models.FollowsWellformed` states only the two foreign keys.
- The related name `subscribes` is read both as "rows where this user follows" (backend/users/serializers.py:28) and as "rows where this user is followed" (backend/users/views.py:44). Both are modelled with the intended meaning, "the caller follows the author".
- `ShortRecipeSerializer` is imported but not defined in backend/api/serializers.py, and is called on an instance at backend/users/serializers.py:56. The model uses the intended short projection (id, name, image, cooking time).
- Subscriptions.Subscribe: the body validation at backend/users/views.py:27-30 runs the project's own `SubscriptionSerializer` (backend/users/serializers.py:44-79) on the request body. Its field list makes `username`, `email`, `first_name` and `last_name` writable, and the User model (backend/users/models.py:18-20, with the inherited `username`) makes all four required. The parameter `bodyValid` means "the body carries valid `username`, `email`, `first_name` and `last_name` values, and a `username` or `email` held by another user is refused". An empty body is therefore refused with 400 before any row is inserted. The field formats and the uniqueness lookups are not modelled.
- Subscriptions.ListSubscriptions: authors come in subscription-row order. The source's query has no ordering, and pagination is left out.
- Authentication and permissions: every toggle, write and subscription action is reached only by a signed-in user, whose id is a parameter. The 401 answers and the unused `IsOwnerOrAdmin` class are framework plumbing.
- Image handling (Base64 decoding, file storage, `image.url`) is I/O. An image is a stored reference string.
- Pagination, routing and `transaction.atomic` are framework plumbing. The rollback is modelled only as "a failed write returns no database".
- Admin screens and the CSV/tag seeding commands are UI and file I/O.
- Field lengths (`max_length`) of tags, ingredients and users, the tag colour format and the user profile fields: text constraints with no behaviour in the core. The recipe name's length is modelled.
- RecipeWrite.FreshRecipeId: the database's id sequence is reduced to "one more than any id in use". Real sequences may skip values.
- Models.NewestFirst: recipes with equal publication dates come in no promised order.
- RecipeRead: only the two caller-relative flags of RecipeListSerializer are modelled. The nested author, tags and ingredients are plain copies of rows.
- Filters.FilterAuthor: an author value that does not parse as an id is not modelled; the parameter is an optional id.
- Toggle.AddTo, Toggle.DeleteFrom, Subscriptions.Subscribe and Subscriptions.Unsubscribe: the primary key in the URL is a `nat`. A path segment that does not parse as a number makes the ORM lookup raise, and the answer is 500; that case is not modelled.
- RecipeWrite.Create and RecipeWrite.Update: the amount column's upper width limit is not modelled (on PostgreSQL an amount above 2147483647 fails the insert with 500). The limit depends on the database engine, so every amount from 0 up is stored.
- RecipeWrite.CleanText: the text fields also refuse surrogate characters in some framework versions; Dafny characters are Unicode scalar values, so a surrogate cannot occur in the model.
- Filters.FilterIngredientName: the prefix match is exact. A database whose `LIKE` ignores case would match more.
- Ingredient search: `IngredientViewSet` (backend/api/views.py:38-43) does not use IngredientFilter. It uses `SearchFilter` on `"^name"`, a case-insensitive prefix match on the `search` parameter. Case folding is not modelled, so only `Filters.FilterIngredientName`, the case-sensitive prefix filter that backend/api/filters.py declares, is.

## Findings

| source | as written | input that shows it | evidently intended | confidence | as-written member | corrected member |
|---|---|---|---|---|---|---|
| backend/api/serializers.py:44 | the payload's `amount` is a bare integer field, and `validate_ingredients` (lines 70-80) checks only emptiness and distinct ids, so `bulk_create` stores any amount the positive-integer column accepts, from 0 up | an ingredient list `[{"id": 1, "amount": 10001}]` is accepted | the declared bound 1..10000 of RecipeIngredient.amount (backend/recipes/models.py:152-158) is enforced on write, as `RecipeWrite.Create` and `RecipeWrite.Update` do with `bounded` true | not executed | RecipeWrite.CreateStoresOutOfRangeAmount | RecipeWrite.CreateKeepsWellformed |

=== FILE: common.dfy ===
/** Small shared vocabulary: optional values, results, HTTP statuses and the
    requesting user as the views see it. */
module Common {

  datatype Option<+T> = None | Some(value: T)

  /** The outcome of an operation that can fail with an error of type E. */
  datatype Result<+T, +E> = Ok(value: T) | Err(error: E) {
    predicate IsFailure() {
      Err?
    }

    function PropagateFailure<U>(): Result<U, E>
      requires Err?
    {
      Err(error)
    }

    function Extract(): T
      requires Ok?
    {
      value
    }
  }

  /** The HTTP statuses the modelled views answer with: 201, 204, 400, 404
      and 500. */
  datatype Status = Created | NoContent | BadRequest | NotFound | ServerError

  /** The user behind a request: anonymous, or an authenticated user id. */
  datatype Caller = Anonymous | Authenticated(id: nat)

  /** The two verbs the add/remove actions accept. */
  datatype Method = Post | Delete
}

=== FILE: filters.dfy ===
/** The query filters of backend/api/filters.py: RecipeFilter (author, tags,
    is_favorited, is_in_shopping_cart) and IngredientFilter (name prefix).
    A queryset is a sequence of rows; every filter keeps a sub-multiset of its
    input in the input's order. */
module Filters {
  import opened Common
  import opened Models
  import Rows

  /** `filter_is_favorited`: narrows to the caller's favorites only when the
      value is true and the caller is authenticated. */
  function FilterIsFavorited(qs: seq<Recipe>, db: Db, caller: Caller, value: bool): (r: seq<Recipe>)
    ensures value && caller.Authenticated? ==>
              forall x :: x in r <==> x in qs && Edge(caller.id, x.id) in db.favorites
    ensures !value || caller.Anonymous? ==> r == qs
    ensures multiset(r) <= multiset(qs)
  {
    if value && caller.Authenticated? then
      Rows.Filter(qs, (x: Recipe) => Edge(caller.id, x.id) in db.favorites)
    else qs
  }

  /** `filter_is_in_shopping_cart`: the same over the cart table. */
  function FilterIsInShoppingCart(qs: seq<Recipe>, db: Db, caller: Caller, value: bool): (r: seq<Recipe>)
    ensures value && caller.Authenticated? ==>
              forall x :: x in r <==> x in qs && Edge(caller.id, x.id) in db.shoppingCart
    ensures !value || caller.Anonymous? ==> r == qs
    ensures multiset(r) <= multiset(qs)
  {
    if value && caller.Authenticated? then
      Rows.Filter(qs, (x: Recipe) => Edge(caller.id, x.id) in db.shoppingCart)
    else qs
  }

  /** `author`: exact match on the author's id; an absent value does not
      filter. */
  function FilterAuthor(qs: seq<Recipe>, author: Option<UserId>): (r: seq<Recipe>)
    ensures author.Some? ==> forall x :: x in r <==> x in qs && x.author == author.value
    ensures author.None? ==> r == qs
    ensures multiset(r) <= multiset(qs)
  {
    match author
    case None => qs
    case Some(a) => Rows.Filter(qs, (x: Recipe) => x.author == a)
  }

  /** Every requested slug names a tag. */
  predicate SlugsKnown(tags: seq<Tag>, slugs: seq<string>) {
    forall s :: s in slugs ==> exists t :: t in tags && t.slug == s
  }

  /** One of the recipe's tags carries one of the requested slugs. */
  predicate HasSlug(x: Recipe, tags: seq<Tag>, slugs: seq<string>) {
    exists t :: t in tags && t.slug in slugs && t.id in x.tags
  }

  /** `tags`: every slug must name a tag (otherwise the query is invalid,
      400); with no slug there is no filtering; otherwise a recipe is kept when
      at least one of its tags carries one of the slugs. */
  function FilterTags(qs: seq<Recipe>, tags: seq<Tag>, slugs: seq<string>): (r: Result<seq<Recipe>, Status>)
    ensures r.Ok? <==> SlugsKnown(tags, slugs)
    ensures r.Err? ==> r.error == BadRequest
    ensures r.Ok? && slugs == [] ==> r.value == qs
    ensures r.Ok? && slugs != [] ==> forall x :: x in r.value <==> x in qs && HasSlug(x, tags, slugs)
    ensures r.Ok? ==> multiset(r.value) <= multiset(qs)
  {
    if !SlugsKnown(tags, slugs) then Err(BadRequest)
    else if slugs == [] then Ok(qs)
    else Ok(Rows.Filter(qs, (x: Recipe) => HasSlug(x, tags, slugs)))
  }

  /** The query parameters RecipeFilter reads; None is an absent one. */
  datatype RecipeQuery = RecipeQuery(
    author: Option<UserId>,
    tags: seq<string>,
    isFavorited: Option<bool>,
    isInShoppingCart: Option<bool>)

  /** The value a boolean filter acts on: an absent parameter does not
      filter, which the methods treat like false. */
  function Flag(b: Option<bool>): bool {
    b.Some? && b.value
  }

  /** Whether one recipe passes every filter of the query. */
  ghost predicate Passes(x: Recipe, db: Db, caller: Caller, q: RecipeQuery) {
    && (q.author.Some? ==> x.author == q.author.value)
    && (q.tags != [] ==> HasSlug(x, db.tags, q.tags))
    && (Flag(q.isFavorited) && caller.Authenticated? ==> Edge(caller.id, x.id) in db.favorites)
    && (Flag(q.isInShoppingCart) && caller.Authenticated? ==> Edge(caller.id, x.id) in db.shoppingCart)
  }

  /** RecipeFilter applied to a queryset: all four filters in turn. */
  function FilterRecipes(qs: seq<Recipe>, db: Db, caller: Caller, q: RecipeQuery): (r: Result<seq<Recipe>, Status>)
    ensures r.Ok? <==> SlugsKnown(db.tags, q.tags)
    ensures r.Ok? ==> forall x :: x in r.value <==> x in qs && Passes(x, db, caller, q)
    ensures r.Ok? ==> multiset(r.value) <= multiset(qs)
  {
    var byAuthor := FilterAuthor(qs, q.author);
    var byTags :- FilterTags(byAuthor, db.tags, q.tags);
    var byFavorite := FilterIsFavorited(byTags, db, caller, Flag(q.isFavorited));
    Ok(FilterIsInShoppingCart(byFavorite, db, caller, Flag(q.isInShoppingCart)))
  }

  /** `GET /recipes/`: the default newest-first listing, filtered. The
      result holds exactly the recipes that pass, newest first. */
  function ListRecipes(db: Db, caller: Caller, q: RecipeQuery): (r: Result<seq<Recipe>, Status>)
    ensures r.Ok? <==> SlugsKnown(db.tags, q.tags)
    ensures r.Ok? ==> forall x :: x in r.value <==> x in db.recipes && Passes(x, db, caller, q)
    ensures r.Ok? ==> multiset(r.value) <= multiset(db.recipes)
  {
    var all := NewestFirst(db.recipes);
    assert forall x :: x in all <==> x in multiset(db.recipes);
    FilterRecipes(all, db, caller, q)
  }

  /** The recipe listing stays newest first after filtering. */
  lemma ListRecipesNewestFirst(db: Db, caller: Caller, q: RecipeQuery)
    ensures var r := ListRecipes(db, caller, q);
            r.Ok? ==> NewestFirstOrder(r.value)
  {
    var all := NewestFirst(db.recipes);
    var byAuthor := FilterAuthor(all, q.author);
    if q.author.Some? {
      FilterKeepsNewestFirst(all, (x: Recipe) => x.author == q.author.value);
    }
    var byTags := FilterTags(byAuthor, db.tags, q.tags);
    if byTags.Ok? {
      if q.tags != [] {
        FilterKeepsNewestFirst(byAuthor, (x: Recipe) => HasSlug(x, db.tags, q.tags));
      }
      var byFavorite := FilterIsFavorited(byTags.value, db, caller, Flag(q.isFavorited));
      if Flag(q.isFavorited) && caller.Authenticated? {
        FilterKeepsNewestFirst(byTags.value, (x: Recipe) => Edge(caller.id, x.id) in db.favorites);
      }
      if Flag(q.isInShoppingCart) && caller.Authenticated? {
        FilterKeepsNewestFirst(byFavorite, (x: Recipe) => Edge(caller.id, x.id) in db.shoppingCart);
      }
    }
  }

  /** IngredientFilter: `name` keeps the ingredients whose name starts with
      the given text (case-sensitive); an absent value does not filter. */
  function FilterIngredientName(ings: seq<Ingredient>, name: Option<string>): (r: seq<Ingredient>)
    ensures name.Some? ==> forall x :: x in r <==> x in ings && name.value <= x.name
    ensures name.None? ==> r == ings
    ensures multiset(r) <= multiset(ings)
  {
    match name
    case None => ings
    case Some(prefix) => Rows.Filter(ings, (x: Ingredient) => prefix <= x.name)
  }
}

=== FILE: models.dfy ===
/** The persisted entities of backend/recipes/models.py and the invariants the
    model layer declares for them: field bounds, unique keys, foreign keys and
    the default newest-first ordering of recipes. The database is a record of
    tables, each table a sequence of rows. */
module Models {
  import opened Common
  import Rows

  type UserId = nat
  type RecipeId = nat
  type TagId = nat
  type IngredientId = nat

  /** Validator bounds of Recipe.cooking_time (minutes). */
  const MinCookingTime: int := 1
  const MaxCookingTime: int := 1000

  /** Validator bounds of RecipeIngredient.amount. */
  const MinAmount: int := 1
  const MaxAmount: int := 10000

  /** `max_length` of Recipe.name. */
  const MaxRecipeNameLength: nat := 200

  datatype Tag = Tag(id: TagId, name: string, color: string, slug: string)

  datatype Ingredient = Ingredient(id: IngredientId, name: string, unit: string)

  /** A recipe row; `tags` is its many-to-many tag association and `image`
      the stored file's reference. */
  datatype Recipe = Recipe(
    id: RecipeId,
    author: UserId,
    name: string,
    image: string,
    text: string,
    tags: set<TagId>,
    cookingTime: int,
    pubDate: int)

  /** The through row that carries an ingredient's quantity in a recipe. */
  datatype RecipeIngredient = RecipeIngredient(recipe: RecipeId, ingredient: IngredientId, amount: int)

  /** A (user, recipe) row of the Favorite or the ShoppingCart table. */
  datatype Edge = Edge(user: UserId, recipe: RecipeId)

  /** A Subscription row: `user` follows `author`. */
  datatype Follow = Follow(user: UserId, author: UserId)

  datatype Db = Db(
    users: set<UserId>,
    tags: seq<Tag>,
    ingredients: seq<Ingredient>,
    recipes: seq<Recipe>,
    recipeIngredients: seq<RecipeIngredient>,
    favorites: seq<Edge>,
    shoppingCart: seq<Edge>,
    subscriptions: seq<Follow>)

  predicate CookingTimeInRange(t: int) {
    MinCookingTime <= t <= MaxCookingTime
  }

  predicate AmountInRange(a: int) {
    MinAmount <= a <= MaxAmount
  }

  function RecipeIds(rs: seq<Recipe>): set<RecipeId> {
    set r | r in rs :: r.id
  }

  function TagIds(ts: seq<Tag>): set<TagId> {
    set t | t in ts :: t.id
  }

  function IngredientIds(ings: seq<Ingredient>): set<IngredientId> {
    set i | i in ings :: i.id
  }

  /** The lookup of `get_object_or_404(Recipe, id=pk)` and of the view's
      `get_object()`: some row with that id, or none, which the view answers
      with 404. */
  function FindRecipe(rs: seq<Recipe>, id: RecipeId): (r: Option<Recipe>)
    ensures r.Some? ==> r.value in rs && r.value.id == id
    ensures r.None? <==> id !in RecipeIds(rs)
  {
    if |rs| == 0 then None
    else if rs[0].id == id then Some(rs[0])
    else
      assert RecipeIds(rs) == {rs[0].id} + RecipeIds(rs[1..]) by {
        assert rs == [rs[0]] + rs[1..];
      }
      FindRecipe(rs[1..], id)
  }

  /** The ingredient row with the given primary key, if any. */
  function FindIngredient(ings: seq<Ingredient>, id: IngredientId): (r: Option<Ingredient>)
    ensures r.Some? ==> r.value in ings && r.value.id == id
    ensures r.None? <==> id !in IngredientIds(ings)
  {
    if |ings| == 0 then None
    else if ings[0].id == id then Some(ings[0])
    else
      assert IngredientIds(ings) == {ings[0].id} + IngredientIds(ings[1..]) by {
        assert ings == [ings[0]] + ings[1..];
      }
      FindIngredient(ings[1..], id)
  }

  // ---------------------------------------------------------------------
  // Declared invariants
  // ---------------------------------------------------------------------

  /** Tag.slug is unique, and so is the primary key. */
  ghost predicate TagsWellformed(ts: seq<Tag>) {
    forall i, j :: 0 <= i < j < |ts| ==> ts[i].id != ts[j].id && ts[i].slug != ts[j].slug
  }

  /** The `unique_name_unit` constraint on (name, measurement_unit), and the
      primary key. */
  ghost predicate IngredientsWellformed(ings: seq<Ingredient>) {
    forall i, j :: 0 <= i < j < |ings| ==>
      ings[i].id != ings[j].id && (ings[i].name, ings[i].unit) != (ings[j].name, ings[j].unit)
  }

  ghost predicate UniqueRecipeIds(rs: seq<Recipe>) {
    forall i, j :: 0 <= i < j < |rs| ==> rs[i].id != rs[j].id
  }

  /** Primary key, cooking-time validators, and foreign keys to the author and
      the tags. */
  ghost predicate RecipesWellformed(db: Db) {
    && UniqueRecipeIds(db.recipes)
    && forall r :: r in db.recipes ==>
         CookingTimeInRange(r.cookingTime) && r.author in db.users && r.tags <= TagIds(db.tags)
  }

  /** Amount validators and both foreign keys of every through row. */
  ghost predicate RecipeIngredientsWellformed(db: Db) {
    forall ri :: ri in db.recipeIngredients ==>
      && AmountInRange(ri.amount)
      && ri.recipe in RecipeIds(db.recipes)
      && ri.ingredient in IngredientIds(db.ingredients)
  }

  /** The (user, recipe) unique constraint of Favorite and ShoppingCart, and
      both foreign keys. */
  ghost predicate EdgesWellformed(db: Db, t: seq<Edge>) {
    && Rows.NoDuplicates(t)
    && forall e :: e in t ==> e.user in db.users && e.recipe in RecipeIds(db.recipes)
  }

  /** Both foreign keys of a subscription row (no uniqueness is visible). */
  ghost predicate FollowsWellformed(db: Db) {
    forall f :: f in db.subscriptions ==> f.user in db.users && f.author in db.users
  }

  ghost predicate Wellformed(db: Db) {
    && TagsWellformed(db.tags)
    && IngredientsWellformed(db.ingredients)
    && RecipesWellformed(db)
    && RecipeIngredientsWellformed(db)
    && EdgesWellformed(db, db.favorites)
    && EdgesWellformed(db, db.shoppingCart)
    && FollowsWellformed(db)
  }

  /** Under the `unique_name_unit` constraint, (name, unit) identifies an
      ingredient row: grouping by it is grouping by ingredient. */
  lemma NameUnitIsKey(ings: seq<Ingredient>, a: Ingredient, b: Ingredient)
    requires IngredientsWellformed(ings)
    requires a in ings && b in ings
    requires a.name == b.name && a.unit == b.unit
    ensures a == b
  {
    var i :| 0 <= i < |ings| && ings[i] == a;
    var j :| 0 <= j < |ings| && ings[j] == b;
    if i < j {
      assert (ings[i].name, ings[i].unit) != (ings[j].name, ings[j].unit);
    } else if j < i {
      assert (ings[j].name, ings[j].unit) != (ings[i].name, ings[i].unit);
    }
  }

  // ---------------------------------------------------------------------
  // Default ordering `-pub_date`
  // ---------------------------------------------------------------------

  predicate NewestFirstOrder(rs: seq<Recipe>) {
    forall i, j :: 0 <= i < j < |rs| ==> rs[i].pubDate >= rs[j].pubDate
  }

  /** Places x before the first recipe that is not newer than it. */
  function InsertByDate(x: Recipe, rs: seq<Recipe>): (r: seq<Recipe>)
    requires NewestFirstOrder(rs)
    ensures NewestFirstOrder(r)
    ensures multiset(r) == multiset(rs) + multiset{x}
  {
    if |rs| == 0 then [x]
    else if x.pubDate >= rs[0].pubDate then
      [x] + rs
    else
      var tail := InsertByDate(x, rs[1..]);
      BelowHead(rs, x, tail);
      ConsKeepsNewestFirst(rs[0], tail);
      assert rs == [rs[0]] + rs[1..];
      [rs[0]] + tail
  }

  /** What InsertByDate puts after the head of a listing is no newer than
      that head. */
  lemma BelowHead(rs: seq<Recipe>, x: Recipe, tail: seq<Recipe>)
    requires NewestFirstOrder(rs) && |rs| > 0 && x.pubDate < rs[0].pubDate
    requires multiset(tail) == multiset(rs[1..]) + multiset{x}
    ensures forall y :: y in tail ==> rs[0].pubDate >= y.pubDate
  {
    HeadIsNewest(rs);
    forall y | y in tail
      ensures rs[0].pubDate >= y.pubDate
    {
      assert y in multiset(tail);
      if y != x {
        assert y in multiset(rs[1..]);
      }
    }
  }

  /** The default recipe listing, `ordering = ["-pub_date"]`: the same rows,
      newest first. Rows with equal dates may come in any order in the
      database; this is one of those orders. */
  function NewestFirst(rs: seq<Recipe>): (r: seq<Recipe>)
    ensures NewestFirstOrder(r)
    ensures multiset(r) == multiset(rs)
  {
    if |rs| == 0 then []
    else
      assert rs == [rs[0]] + rs[1..];
      InsertByDate(rs[0], NewestFirst(rs[1..]))
  }

  /** Filtering a listing keeps it newest first. */
  lemma {:induction false} FilterKeepsNewestFirst(rs: seq<Recipe>, p: Recipe -> bool)
    requires NewestFirstOrder(rs)
    ensures NewestFirstOrder(Rows.Filter(rs, p))
  {
    if |rs| > 0 {
      var tail := Rows.Filter(rs[1..], p);
      FilterKeepsNewestFirst(rs[1..], p);
      Rows.FilterCons(rs, p);
      if p(rs[0]) {
        HeadIsNewest(rs);
        ConsKeepsNewestFirst(rs[0], tail);
      }
    }
  }

  /** The head of a newest-first listing is at least as new as every other
      entry. */
  lemma HeadIsNewest(rs: seq<Recipe>)
    requires NewestFirstOrder(rs) && |rs| > 0
    ensures forall y :: y in rs[1..] ==> rs[0].pubDate >= y.pubDate
  {
    forall y | y in rs[1..]
      ensures rs[0].pubDate >= y.pubDate
    {
      var m :| 0 <= m < |rs[1..]| && rs[1..][m] == y;
      assert rs[m + 1] == y;
    }
  }

  lemma ConsKeepsNewestFirst(x: Recipe, rs: seq<Recipe>)
    requires NewestFirstOrder(rs)
    requires forall y :: y in rs ==> x.pubDate >= y.pubDate
    ensures NewestFirstOrder([x] + rs)
  {
    var r := [x] + rs;
    forall i, j | 0 <= i < j < |r|
      ensures r[i].pubDate >= r[j].pubDate
    {
      assert r[j] == rs[j - 1];
      if i > 0 {
        assert r[i] == rs[i - 1];
      } else {
        assert rs[j - 1] in rs;
      }
    }
  }
}

=== FILE: recipe_read.dfy ===
/** The caller-relative flags of RecipeListSerializer (`get_is_favorited`,
    `get_is_in_shopping_cart` in backend/api/serializers.py), and how they
    agree with the toggles that write the tables and the filters that read
    them. */
module RecipeRead {
  import opened Common
  import opened Models
  import Toggle
  import Filters

  /** Whether the caller has the recipe in the given table: always false for
      an anonymous caller. */
  function Marked(db: Db, t: Toggle.Table, caller: Caller, recipe: Recipe): (b: bool)
    ensures caller.Anonymous? ==> !b
    ensures caller.Authenticated? ==> (b <==> exists e :: e in Toggle.EdgesOf(db, t) && e.user == caller.id && e.recipe == recipe.id)
  {
    match caller
    case Anonymous => false
    case Authenticated(u) =>
      Edge(u, recipe.id) in Toggle.EdgesOf(db, t)
  }

  /** `is_favorited`. */
  function IsFavorited(db: Db, caller: Caller, recipe: Recipe): (b: bool)
    ensures caller.Anonymous? ==> !b
    ensures caller.Authenticated? ==> (b <==> Edge(caller.id, recipe.id) in db.favorites)
  {
    Marked(db, Toggle.Favorites, caller, recipe)
  }

  /** `is_in_shopping_cart`. */
  function IsInShoppingCart(db: Db, caller: Caller, recipe: Recipe): (b: bool)
    ensures caller.Anonymous? ==> !b
    ensures caller.Authenticated? ==> (b <==> Edge(caller.id, recipe.id) in db.shoppingCart)
  {
    Marked(db, Toggle.ShoppingCart, caller, recipe)
  }

  /** A successful add sets the flag for the recipe it added, and a successful
      remove clears it; neither touches the flag of any other recipe. */
  lemma {:induction false} ToggleSetsFlag(db: Db, t: Toggle.Table, m: Method, user: UserId, pk: RecipeId, recipe: Recipe)
    ensures var r := Toggle.Dispatch(db, t, m, user, pk);
            && (r.status == Created && recipe.id == pk ==> Marked(r.db, t, Authenticated(user), recipe))
            && (r.status == NoContent && recipe.id == pk ==> !Marked(r.db, t, Authenticated(user), recipe))
            && (recipe.id != pk ==> Marked(r.db, t, Authenticated(user), recipe) == Marked(db, t, Authenticated(user), recipe))
  {
    var r := Toggle.Dispatch(db, t, m, user, pk);
    if recipe.id != pk {
      var e := Edge(user, recipe.id);
      assert e != Edge(user, pk);
      if m == Delete && r.status == NoContent {
        assert multiset(Toggle.EdgesOf(r.db, t))[e] == multiset(Toggle.EdgesOf(db, t))[e];
      }
    }
  }

  /** For an authenticated caller, the `is_favorited=1` filter keeps a recipe
      exactly when its `is_favorited` flag is true; for an anonymous caller the
      filter keeps everything while the flag is false. */
  lemma FavoritedFilterMatchesFlag(qs: seq<Recipe>, db: Db, caller: Caller, x: Recipe)
    requires x in qs
    ensures caller.Authenticated? ==> (x in Filters.FilterIsFavorited(qs, db, caller, true) <==> IsFavorited(db, caller, x))
    ensures caller.Anonymous? ==> x in Filters.FilterIsFavorited(qs, db, caller, true) && !IsFavorited(db, caller, x)
  {
  }

  /** The same agreement for `is_in_shopping_cart`. */
  lemma CartFilterMatchesFlag(qs: seq<Recipe>, db: Db, caller: Caller, x: Recipe)
    requires x in qs
    ensures caller.Authenticated? ==> (x in Filters.FilterIsInShoppingCart(qs, db, caller, true) <==> IsInShoppingCart(db, caller, x))
    ensures caller.Anonymous? ==> x in Filters.FilterIsInShoppingCart(qs, db, caller, true) && !IsInShoppingCart(db, caller, x)
  {
  }
}

=== FILE: recipe_write.dfy ===
/** The recipe write path of RecipeCreateUpdateSerializer
    (backend/api/serializers.py): field validation of the tag and ingredient
    lists, creation of a recipe with its tags and through rows, and update
    that replaces either association wholesale when it is present.

    A write either succeeds with a new database or fails with an error and no
    database at all: the serializer validates before it writes, and the
    `transaction.atomic` wrapper rolls back a write that fails part way. */
module RecipeWrite {
  import opened Common
  import opened Models
  import Rows

  /** One item of the payload's `ingredients` list: an ingredient primary key
      and its amount. */
  datatype IngredientAmount = IngredientAmount(id: IngredientId, amount: int)

  /** Why a write is refused. */
  datatype WriteError =
    | MissingField           // a required field is absent from a full write
    | UnknownTag             // a tag primary key that does not exist
    | EmptyTags              // validate_tags
    | EmptyIngredients       // validate_ingredients
    | DuplicateIngredients   // validate_ingredients
    | AmountOutOfRange       // the amount bound (see AmountBoundNotEnforced)
    | CookingTimeOutOfRange  // the cooking_time validators
    | RecipeNotFound         // the recipe to update does not exist
    | UnknownIngredient      // foreign-key failure of the bulk insert
    | NegativeAmount         // the amount column's `>= 0` check fails the bulk insert
    | BlankText              // a name or text that is empty or only whitespace
    | NullCharacter          // a name or text holding a NUL character
    | TextTooLong            // a stripped name longer than its max_length
  {
    function Status(): Status {
      match this
      case RecipeNotFound => NotFound
      case UnknownIngredient => ServerError
      case NegativeAmount => ServerError
      case _ => BadRequest
    }
  }

  /** The writable fields of a request body; None is an absent field. The
      image is the stored reference of the decoded upload. */
  datatype Payload = Payload(
    name: Option<string>,
    image: Option<string>,
    text: Option<string>,
    tags: Option<seq<TagId>>,
    ingredients: Option<seq<IngredientAmount>>,
    cookingTime: Option<int>)
  {
    predicate Complete() {
      name.Some? && image.Some? && text.Some? && tags.Some? && ingredients.Some? && cookingTime.Some?
    }
  }

  /** A successful write: the new database and the written recipe. */
  datatype Written = Written(db: Db, recipe: Recipe)

  /** The validated data of a write: the cleaned name and text, the tag set
      and the ingredient items, each present exactly when its field is. */
  datatype Validated = Validated(
    name: Option<string>,
    text: Option<string>,
    tags: Option<set<TagId>>,
    items: Option<seq<IngredientAmount>>)

  // ---------------------------------------------------------------------
  // Text fields
  // ---------------------------------------------------------------------

  /** The characters Python's `str.strip()` removes: those for which
      `str.isspace()` holds. */
  predicate IsSpace(c: char) {
    || '\t' <= c <= '\r'
    || '\U{1C}' <= c <= ' '
    || c == '\U{85}' || c == '\U{A0}' || c == '\U{1680}'
    || '\U{2000}' <= c <= '\U{200A}'
    || c == '\U{2028}' || c == '\U{2029}' || c == '\U{202F}' || c == '\U{205F}' || c == '\U{3000}'
  }

  ghost predicate AllSpace(s: string) {
    forall k :: 0 <= k < |s| ==> IsSpace(s[k])
  }

  /** Neither end of the string is whitespace. */
  ghost predicate Stripped(s: string) {
    |s| > 0 ==> !IsSpace(s[0]) && !IsSpace(s[|s| - 1])
  }

  /** The number of leading whitespace characters. */
  function Lead(s: string): (i: nat)
    ensures i <= |s|
    ensures forall k :: 0 <= k < i ==> IsSpace(s[k])
    ensures i < |s| ==> !IsSpace(s[i])
  {
    if |s| == 0 || !IsSpace(s[0]) then 0 else 1 + Lead(s[1..])
  }

  /** The length of the string without its trailing whitespace. */
  function Trail(s: string): (j: nat)
    ensures j <= |s|
    ensures forall k :: j <= k < |s| ==> IsSpace(s[k])
    ensures j > 0 ==> !IsSpace(s[j - 1])
  {
    if |s| == 0 || !IsSpace(s[|s| - 1]) then |s| else Trail(s[..|s| - 1])
  }

  /** `str.strip()`: the string without its leading and trailing
      whitespace (StripDecomposes, StripUnique). */
  function Strip(s: string): (r: string)
    ensures Stripped(r)
    ensures r == [] <==> AllSpace(s)
  {
    var j := Trail(s);
    if j == 0 then [] else s[Lead(s)..j]
  }

  /** The input is the stripped string with whitespace on either side: the
      `Lead(s)` characters before it and all characters after it are
      whitespace. */
  lemma StripDecomposes(s: string)
    ensures Lead(s) + |Strip(s)| <= |s| && Strip(s) == s[Lead(s)..Lead(s) + |Strip(s)|]
    ensures forall k :: Lead(s) + |Strip(s)| <= k < |s| ==> IsSpace(s[k])
  {
  }

  /** Whitespace around a string without whitespace at its ends is exactly
      what `str.strip()` removes: the result is determined by these three
      conditions. */
  lemma StripUnique(u: string, r: string, v: string)
    requires AllSpace(u) && AllSpace(v) && Stripped(r)
    ensures Strip(u + r + v) == r
  {
    var s := u + r + v;
    if r == [] {
      assert AllSpace(s) by {
        forall k | 0 <= k < |s|
          ensures IsSpace(s[k])
        {
          if k < |u| { assert s[k] == u[k]; } else { assert s[k] == v[k - |u|]; }
        }
      }
    } else {
      assert s[|u|] == r[0];
      assert s[|u| + |r| - 1] == r[|r| - 1];
      assert forall k :: 0 <= k < |u| ==> s[k] == u[k];
      assert forall k :: |u| + |r| <= k < |s| ==> s[k] == v[k - |u| - |r|];
      assert Lead(s) == |u|;
      assert Trail(s) == |u| + |r|;
      assert s[|u|..|u| + |r|] == r;
    }
  }

  /** Stripping twice is stripping once. */
  lemma StripIdempotent(s: string)
    ensures Strip(Strip(s)) == Strip(s)
  {
    var r := Strip(s);
    assert [] + r + [] == r;
    StripUnique([], r, []);
  }

  /** A text field the serializer builds from a model column without
      `blank=True`: a value that is empty or only whitespace is blank, a
      NUL character is refused, and the stripped value must fit the
      column's `max_length`, when it has one. */
  ghost predicate TextValid(s: string, maxLength: Option<nat>) {
    && !AllSpace(s)
    && (forall k :: 0 <= k < |s| ==> s[k] != '\0')
    && (maxLength.Some? ==> |Strip(s)| <= maxLength.value)
  }

  /** The serializer's CharField for `name` and `text` (its defaults:
      blank values refused, whitespace trimmed, NUL characters refused):
      on success, the value to store. */
  function CleanText(s: string, maxLength: Option<nat>): (r: Result<string, WriteError>)
    ensures r.Ok? <==> TextValid(s, maxLength)
    ensures r.Err? ==> r.error.Status() == BadRequest
    ensures AllSpace(s) ==> r == Err(BlankText)
    ensures r.Ok? ==> r.value == Strip(s) && Stripped(r.value) && |r.value| > 0
  {
    var stripped := Strip(s);
    if stripped == [] then Err(BlankText)
    else if '\0' in s then Err(NullCharacter)
    else if maxLength.Some? && |stripped| > maxLength.value then Err(TextTooLong)
    else Ok(stripped)
  }

  /** A stored value sent again is stored unchanged. */
  lemma CleanTextIdempotent(s: string, maxLength: Option<nat>)
    ensures CleanText(s, maxLength).Ok? ==>
              CleanText(CleanText(s, maxLength).value, maxLength) == CleanText(s, maxLength)
  {
    if CleanText(s, maxLength).Ok? {
      StrippedTextValid(s, maxLength);
    }
  }

  lemma StrippedTextValid(s: string, maxLength: Option<nat>)
    requires TextValid(s, maxLength)
    ensures TextValid(Strip(s), maxLength) && Strip(Strip(s)) == Strip(s)
  {
    var r := Strip(s);
    StripIdempotent(s);
    StripDecomposes(s);
    assert !IsSpace(r[0]);
    var i := Lead(s);
    assert forall k :: 0 <= k < |r| ==> r[k] == s[i + k];
  }

  /** Absent text fields stay absent; present ones are cleaned. */
  function CleanOptionalText(s: Option<string>, maxLength: Option<nat>): (r: Result<Option<string>, WriteError>)
    ensures r.Ok? <==> (s.Some? ==> TextValid(s.value, maxLength))
    ensures r.Err? ==> r.error.Status() == BadRequest
    ensures r.Ok? ==> (r.value.Some? <==> s.Some?) && (s.Some? ==> r.value.value == Strip(s.value))
  {
    match s
    case None => Ok(None)
    case Some(x) =>
      var cleaned :- CleanText(x, maxLength);
      Ok(Some(cleaned))
  }

  // ---------------------------------------------------------------------
  // Field validation
  // ---------------------------------------------------------------------

  /** The `tags` field: every primary key must name a tag, then
      `validate_tags` refuses an empty list. The result is the tag set the
      recipe will hold. */
  function ValidateTags(known: set<TagId>, tags: seq<TagId>): (r: Result<set<TagId>, WriteError>)
    ensures r.Ok? <==> |tags| > 0 && forall t :: t in tags ==> t in known
    ensures |tags| == 0 ==> r == Err(EmptyTags)
    ensures r.Err? ==> r.error.Status() == BadRequest
    ensures r.Ok? ==> forall t :: t in r.value <==> t in tags
  {
    if !(Rows.Elements(tags) <= known) then Err(UnknownTag)
    else if tags == [] then Err(EmptyTags)
    else Ok(Rows.Elements(tags))
  }

  function IdsOf(items: seq<IngredientAmount>): (ids: seq<IngredientId>)
    ensures |ids| == |items|
    ensures forall i :: 0 <= i < |items| ==> ids[i] == items[i].id
  {
    if |items| == 0 then [] else [items[0].id] + IdsOf(items[1..])
  }

  /** No two payload items name the same ingredient. */
  ghost predicate DistinctIds(items: seq<IngredientAmount>) {
    forall i, j :: 0 <= i < j < |items| ==> items[i].id != items[j].id
  }

  /** Every amount lies within the declared bounds of
      RecipeIngredient.amount. */
  ghost predicate AmountsInRange(items: seq<IngredientAmount>) {
    forall it :: it in items ==> AmountInRange(it.amount)
  }

  /** `validate_ingredients` as written: refuses an empty list and a list
      whose ids, put in a set, shrink. It does not look at the amounts. */
  function ValidateIngredients(items: seq<IngredientAmount>): (r: Result<seq<IngredientAmount>, WriteError>)
    ensures r.Ok? <==> |items| > 0 && DistinctIds(items)
    ensures |items| == 0 ==> r == Err(EmptyIngredients)
    ensures r.Err? ==> r.error.Status() == BadRequest
    ensures r.Ok? ==> r.value == items
  {
    var ids := IdsOf(items);
    Rows.DistinctIffCardinality(ids);
    Rows.NoDuplicatesPairwise(ids);
    if items == [] then Err(EmptyIngredients)
    else if |Rows.Elements(ids)| != |ids| then Err(DuplicateIngredients)
    else Ok(items)
  }

  /** `validate_ingredients` with the declared amount bound enforced as
      well: the correction of AmountBoundNotEnforced. */
  function ValidateIngredientsChecked(items: seq<IngredientAmount>): (r: Result<seq<IngredientAmount>, WriteError>)
    ensures r.Ok? <==> |items| > 0 && DistinctIds(items) && AmountsInRange(items)
    ensures r.Err? ==> r.error.Status() == BadRequest
    ensures r.Ok? ==> r.value == items
  {
    var checked :- ValidateIngredients(items);
    if forall it :: it in checked ==> AmountInRange(it.amount) then Ok(checked)
    else Err(AmountOutOfRange)
  }

  /** A payload ingredient list that passes validation: as written when
      `bounded` is false, with the amount bound as well when it is true. */
  ghost predicate ItemsValid(items: seq<IngredientAmount>, bounded: bool) {
    |items| > 0 && DistinctIds(items) && (bounded ==> AmountsInRange(items))
  }

  /** The ingredient validation the write operations run. */
  function CheckIngredients(items: seq<IngredientAmount>, bounded: bool): (r: Result<seq<IngredientAmount>, WriteError>)
    ensures r.Ok? <==> ItemsValid(items, bounded)
    ensures r.Err? ==> r.error.Status() == BadRequest
    ensures r.Ok? ==> r.value == items
  {
    if bounded then ValidateIngredientsChecked(items) else ValidateIngredients(items)
  }

  /** The as-written validation accepts an amount above the declared
      maximum of RecipeIngredient.amount, which the bulk insert then stores;
      the checked validation refuses it. */
  lemma AmountBoundNotEnforced()
    ensures var items := [IngredientAmount(1, MaxAmount + 1)];
            && ValidateIngredients(items) == Ok(items)
            && !AmountInRange(items[0].amount)
            && ValidateIngredientsChecked(items) == Err(AmountOutOfRange)
  {
    var items := [IngredientAmount(1, MaxAmount + 1)];
    assert items[0] in items;
  }

  // ---------------------------------------------------------------------
  // Through rows
  // ---------------------------------------------------------------------

  /** `add_ingredients`: one through row per payload item, in order, all
      attached to the recipe. */
  function AddIngredients(recipe: RecipeId, items: seq<IngredientAmount>): (rows: seq<RecipeIngredient>)
    ensures |rows| == |items|
    ensures forall i :: 0 <= i < |rows| ==>
              rows[i].recipe == recipe && rows[i].ingredient == items[i].id && rows[i].amount == items[i].amount
  {
    if |items| == 0 then []
    else [RecipeIngredient(recipe, items[0].id, items[0].amount)] + AddIngredients(recipe, items[1..])
  }

  /** Every row `add_ingredients` writes belongs to the recipe and carries
      an (ingredient, amount) pair of the payload. */
  lemma AddedRowsFromPayload(recipe: RecipeId, items: seq<IngredientAmount>)
    ensures forall x :: x in AddIngredients(recipe, items) ==>
              x.recipe == recipe && IngredientAmount(x.ingredient, x.amount) in items
  {
    var rows := AddIngredients(recipe, items);
    forall x | x in rows
      ensures x.recipe == recipe && IngredientAmount(x.ingredient, x.amount) in items
    {
      var i :| 0 <= i < |rows| && rows[i] == x;
      assert IngredientAmount(x.ingredient, x.amount) == items[i];
    }
  }

  /** Every payload item gets its row: the converse of
      AddedRowsFromPayload. */
  lemma PayloadRowsAdded(recipe: RecipeId, items: seq<IngredientAmount>)
    ensures forall it :: it in items ==> RecipeIngredient(recipe, it.id, it.amount) in AddIngredients(recipe, items)
  {
    var rows := AddIngredients(recipe, items);
    forall it | it in items
      ensures RecipeIngredient(recipe, it.id, it.amount) in rows
    {
      var i :| 0 <= i < |items| && items[i] == it;
      assert rows[i] == RecipeIngredient(recipe, it.id, it.amount);
    }
  }

  /** Reads a recipe's through rows back as payload items. */
  function PayloadOf(rows: seq<RecipeIngredient>): (items: seq<IngredientAmount>)
    ensures |items| == |rows|
  {
    if |rows| == 0 then [] else [IngredientAmount(rows[0].ingredient, rows[0].amount)] + PayloadOf(rows[1..])
  }

  /** The through rows of one recipe, in table order. */
  function RowsOf(rows: seq<RecipeIngredient>, recipe: RecipeId): (r: seq<RecipeIngredient>)
    ensures forall x :: x in r <==> x in rows && x.recipe == recipe
    ensures (forall x :: x in rows ==> x.recipe != recipe) ==> r == []
  {
    if |rows| == 0 then []
    else if rows[0].recipe == recipe then [rows[0]] + RowsOf(rows[1..], recipe)
    else RowsOf(rows[1..], recipe)
  }

  /** `instance.ingredients.clear()`: drops every through row of the
      recipe and keeps every other row with its multiplicity, in order. */
  function ClearRows(rows: seq<RecipeIngredient>, recipe: RecipeId): (r: seq<RecipeIngredient>)
    ensures forall x :: x in r <==> x in rows && x.recipe != recipe
    ensures forall x :: multiset(r)[x] == if x.recipe == recipe then 0 else multiset(rows)[x]
  {
    if |rows| == 0 then []
    else
      assert rows == [rows[0]] + rows[1..];
      if rows[0].recipe == recipe then ClearRows(rows[1..], recipe)
      else [rows[0]] + ClearRows(rows[1..], recipe)
  }

  /** Writing the payload's rows and reading them back gives the payload. */
  lemma {:induction false} PayloadRoundTrip(recipe: RecipeId, items: seq<IngredientAmount>)
    ensures PayloadOf(AddIngredients(recipe, items)) == items
  {
    if |items| > 0 {
      PayloadRoundTrip(recipe, items[1..]);
    }
  }

  lemma {:induction false} RowsOfConcat(a: seq<RecipeIngredient>, b: seq<RecipeIngredient>, recipe: RecipeId)
    ensures RowsOf(a + b, recipe) == RowsOf(a, recipe) + RowsOf(b, recipe)
  {
    if |a| == 0 {
      assert a + b == b;
    } else {
      assert (a + b)[0] == a[0];
      assert (a + b)[1..] == a[1..] + b;
      RowsOfConcat(a[1..], b, recipe);
    }
  }

  /** The new rows belong to their recipe and to no other. */
  lemma {:induction false} RowsOfAdded(recipe: RecipeId, items: seq<IngredientAmount>, other: RecipeId)
    ensures RowsOf(AddIngredients(recipe, items), recipe) == AddIngredients(recipe, items)
    ensures other != recipe ==> RowsOf(AddIngredients(recipe, items), other) == []
  {
    if |items| > 0 {
      RowsOfAdded(recipe, items[1..], other);
    }
  }

  /** Clearing a recipe's rows leaves it none and leaves every other
      recipe's rows as they were. */
  lemma {:induction false} RowsOfCleared(rows: seq<RecipeIngredient>, recipe: RecipeId, other: RecipeId)
    ensures RowsOf(ClearRows(rows, recipe), recipe) == []
    ensures other != recipe ==> RowsOf(ClearRows(rows, recipe), other) == RowsOf(rows, other)
  {
    if |rows| > 0 {
      RowsOfCleared(rows[1..], recipe, other);
    }
  }

  /** Appending a fresh recipe's rows: they read back as the payload, and
      every other recipe keeps its rows. */
  lemma AppendedRows(rows: seq<RecipeIngredient>, id: RecipeId, items: seq<IngredientAmount>)
    requires RowsOf(rows, id) == []
    ensures PayloadOf(RowsOf(rows + AddIngredients(id, items), id)) == items
    ensures forall other :: other != id ==>
              RowsOf(rows + AddIngredients(id, items), other) == RowsOf(rows, other)
  {
    var added := AddIngredients(id, items);
    RowsOfConcat(rows, added, id);
    RowsOfAdded(id, items, id);
    assert RowsOf(rows + added, id) == added;
    PayloadRoundTrip(id, items);
    forall other | other != id
      ensures RowsOf(rows + added, other) == RowsOf(rows, other)
    {
      AppendedRowsOther(rows, id, items, other);
    }
  }

  lemma AppendedRowsOther(rows: seq<RecipeIngredient>, id: RecipeId, items: seq<IngredientAmount>, other: RecipeId)
    requires other != id
    ensures RowsOf(rows + AddIngredients(id, items), other) == RowsOf(rows, other)
  {
    RowsOfConcat(rows, AddIngredients(id, items), other);
    RowsOfAdded(id, items, other);
    assert RowsOf(rows, other) + [] == RowsOf(rows, other);
  }

  /** Clearing a recipe's rows and appending new ones: they read back as
      the payload, and every other recipe keeps its rows. */
  lemma ReplacedRows(rows: seq<RecipeIngredient>, id: RecipeId, items: seq<IngredientAmount>)
    ensures PayloadOf(RowsOf(ClearRows(rows, id) + AddIngredients(id, items), id)) == items
    ensures forall other :: other != id ==>
              RowsOf(ClearRows(rows, id) + AddIngredients(id, items), other) == RowsOf(rows, other)
  {
    RowsOfCleared(rows, id, id);
    AppendedRows(ClearRows(rows, id), id, items);
    forall other | other != id
      ensures RowsOf(ClearRows(rows, id), other) == RowsOf(rows, other)
    {
      RowsOfCleared(rows, id, other);
    }
  }

  // ---------------------------------------------------------------------
  // Create
  // ---------------------------------------------------------------------

  function MaxRecipeId(rs: seq<Recipe>): (m: nat)
    ensures forall r :: r in rs ==> r.id <= m
  {
    if |rs| == 0 then 0
    else
      var m := MaxRecipeId(rs[1..]);
      if rs[0].id > m then rs[0].id else m
  }

  function MaxRowRecipe(rows: seq<RecipeIngredient>): (m: nat)
    ensures forall ri :: ri in rows ==> ri.recipe <= m
  {
    if |rows| == 0 then 0
    else
      var m := MaxRowRecipe(rows[1..]);
      if rows[0].recipe > m then rows[0].recipe else m
  }

  /** The primary key the database assigns to a new recipe: its id sequence
      never hands out an id still referenced by a recipe or a through row. */
  function FreshRecipeId(db: Db): (id: RecipeId)
    ensures id !in RecipeIds(db.recipes)
    ensures RowsOf(db.recipeIngredients, id) == []
  {
    var m := MaxRecipeId(db.recipes);
    var n := MaxRowRecipe(db.recipeIngredients);
    (if m > n then m else n) + 1
  }

  /** Every item names an existing ingredient; otherwise the bulk insert
      fails its foreign key and the transaction rolls back. */
  predicate IngredientsKnown(db: Db, items: seq<IngredientAmount>) {
    forall it :: it in items ==> it.id in IngredientIds(db.ingredients)
  }

  /** The bulk insert succeeds: every amount passes the `>= 0` check of the
      positive-integer amount column, and every item names an existing
      ingredient. */
  predicate InsertAccepts(db: Db, items: seq<IngredientAmount>) {
    && (forall it :: it in items ==> it.amount >= 0)
    && IngredientsKnown(db, items)
  }

  /** The outcome of the bulk insert of validated items: a failed column
      check or foreign key raises a database error, the transaction rolls
      back and the answer is a 500. */
  function CheckInsert(db: Db, items: seq<IngredientAmount>): (r: Result<seq<IngredientAmount>, WriteError>)
    ensures r.Ok? <==> InsertAccepts(db, items)
    ensures r.Err? ==> r.error.Status() == ServerError
    ensures r.Ok? ==> r.value == items
  {
    if !(forall it :: it in items ==> it.amount >= 0) then Err(NegativeAmount)
    else if !IngredientsKnown(db, items) then Err(UnknownIngredient)
    else Ok(items)
  }

  /** The field validation of a create payload: every field present, a
      non-blank name within its length and a non-blank text, the cooking
      time in range, a non-empty list of existing tags and a valid
      ingredient list. */
  ghost predicate CreateFieldsValid(db: Db, p: Payload, bounded: bool) {
    && p.Complete()
    && TextValid(p.name.value, Some(MaxRecipeNameLength))
    && TextValid(p.text.value, None)
    && CookingTimeInRange(p.cookingTime.value)
    && |p.tags.value| > 0 && (forall t :: t in p.tags.value ==> t in TagIds(db.tags))
    && ItemsValid(p.ingredients.value, bounded)
  }

  /** A create payload that passes validation and whose rows the insert
      accepts. */
  ghost predicate CreateValid(db: Db, p: Payload, bounded: bool) {
    CreateFieldsValid(db, p, bounded) && InsertAccepts(db, p.ingredients.value)
  }

  /** Validation of a create payload; on success, the stripped name and
      text, the tag set and the ingredient items to write. A field error is
      a 400; a negative amount or an unknown ingredient passes validation
      and fails the insert, a 500. */
  function ValidateCreate(db: Db, p: Payload, bounded: bool): (r: Result<Validated, WriteError>)
    ensures r.Ok? <==> CreateValid(db, p, bounded)
    ensures r.Err? ==> r.error.Status() == if CreateFieldsValid(db, p, bounded) then ServerError else BadRequest
    ensures r.Ok? ==>
              && r.value.name == Some(Strip(p.name.value)) && r.value.text == Some(Strip(p.text.value))
              && 0 < |r.value.name.value| <= MaxRecipeNameLength && |r.value.text.value| > 0
              && r.value.tags.Some? && (forall t :: t in r.value.tags.value <==> t in p.tags.value)
              && r.value.items == p.ingredients
  {
    if !p.Complete() then Err(MissingField)
    else
      var name :- CleanText(p.name.value, Some(MaxRecipeNameLength));
      var text :- CleanText(p.text.value, None);
      if !CookingTimeInRange(p.cookingTime.value) then Err(CookingTimeOutOfRange)
      else
        var tags :- ValidateTags(TagIds(db.tags), p.tags.value);
        var items :- CheckIngredients(p.ingredients.value, bounded);
        var stored :- CheckInsert(db, items);
        Ok(Validated(Some(name), Some(text), Some(tags), Some(stored)))
  }

  /** Inserts a recipe row with a fresh id and its through rows. */
  function InsertRecipe(db: Db, recipe: Recipe, items: seq<IngredientAmount>): (db': Db)
    requires RowsOf(db.recipeIngredients, recipe.id) == []
    ensures db'.recipes == db.recipes + [recipe]
    ensures PayloadOf(RowsOf(db'.recipeIngredients, recipe.id)) == items
    ensures forall other :: other != recipe.id ==>
              RowsOf(db'.recipeIngredients, other) == RowsOf(db.recipeIngredients, other)
    ensures db'.(recipes := db.recipes, recipeIngredients := db.recipeIngredients) == db
    ensures forall x :: x in db'.recipeIngredients ==>
              x in db.recipeIngredients || (x.recipe == recipe.id && IngredientAmount(x.ingredient, x.amount) in items)
    ensures forall it :: it in items ==> RecipeIngredient(recipe.id, it.id, it.amount) in db'.recipeIngredients
  {
    AppendedRows(db.recipeIngredients, recipe.id, items);
    PayloadRowsAdded(recipe.id, items);
    db.(recipes := db.recipes + [recipe], recipeIngredients := db.recipeIngredients + AddIngredients(recipe.id, items))
  }

  /** `create`: validates the payload, inserts the recipe authored by the
      requesting user and published at `now` with its stripped name and
      text, sets its tags and inserts one through row per item, with the
      item's amount as given.

      `bounded` false is the code as written, which stores any amount the
      column accepts, from 0 up; `bounded` true also refuses an amount
      outside the declared bounds (AmountBoundNotEnforced). */
  function Create(db: Db, user: UserId, p: Payload, now: int, bounded: bool): (r: Result<Written, WriteError>)
    ensures r.Ok? <==> CreateValid(db, p, bounded)
    ensures r.Err? ==> r.error.Status() == if CreateFieldsValid(db, p, bounded) then ServerError else BadRequest
    ensures p.tags == Some([]) ==> r.Err?
    ensures p.ingredients == Some([]) ==> r.Err?
    ensures r.Ok? ==>
              var w := r.value;
              var id := w.recipe.id;
              && id !in RecipeIds(db.recipes)
              && w.db.recipes == db.recipes + [w.recipe]
              && w.recipe.author == user
              && w.recipe.pubDate == now
              && w.recipe.name == Strip(p.name.value) && w.recipe.text == Strip(p.text.value)
              && |w.recipe.name| > 0 && |w.recipe.text| > 0 && |w.recipe.name| <= MaxRecipeNameLength
              && Stripped(w.recipe.name) && Stripped(w.recipe.text)
              && w.recipe.image == p.image.value && w.recipe.cookingTime == p.cookingTime.value
              && (forall t :: t in w.recipe.tags <==> t in p.tags.value)
              && PayloadOf(RowsOf(w.db.recipeIngredients, id)) == p.ingredients.value
              && (forall it :: it in p.ingredients.value ==>
                    RecipeIngredient(id, it.id, it.amount) in w.db.recipeIngredients)
              && (forall other :: other != id ==>
                    RowsOf(w.db.recipeIngredients, other) == RowsOf(db.recipeIngredients, other))
              && w.db.(recipes := db.recipes, recipeIngredients := db.recipeIngredients) == db
              && (forall x :: x in w.db.recipeIngredients ==>
                    x in db.recipeIngredients
                    || (x.recipe == id && IngredientAmount(x.ingredient, x.amount) in p.ingredients.value))
  {
    var valid :- ValidateCreate(db, p, bounded);
    var recipe := Recipe(FreshRecipeId(db), user, valid.name.value, p.image.value, valid.text.value,
                         valid.tags.value, p.cookingTime.value, now);
    Ok(Written(InsertRecipe(db, recipe, valid.items.value), recipe))
  }

  // ---------------------------------------------------------------------
  // Update
  // ---------------------------------------------------------------------

  /** Writes the updated recipe over the row with its id. */
  function ReplaceRecipe(rs: seq<Recipe>, x: Recipe): (r: seq<Recipe>)
    ensures |r| == |rs|
    ensures RecipeIds(r) == RecipeIds(rs)
    ensures x.id in RecipeIds(rs) ==> x in r
    ensures forall y :: y in r ==> y == x || (y in rs && y.id != x.id)
    ensures forall i :: 0 <= i < |r| ==> r[i].id == rs[i].id
  {
    if |rs| == 0 then []
    else
      assert rs == [rs[0]] + rs[1..];
      assert RecipeIds(rs) == {rs[0].id} + RecipeIds(rs[1..]);
      var tail := ReplaceRecipe(rs[1..], x);
      var r := [if rs[0].id == x.id then x else rs[0]] + tail;
      assert r[1..] == tail;
      assert RecipeIds(r) == {r[0].id} + RecipeIds(tail);
      r
  }

  /** The field validation of an update payload: in a full update every
      field must be present, and each present field must be valid. */
  ghost predicate UpdateFieldsValid(db: Db, p: Payload, partial: bool, bounded: bool) {
    && (partial || p.Complete())
    && (p.name.Some? ==> TextValid(p.name.value, Some(MaxRecipeNameLength)))
    && (p.text.Some? ==> TextValid(p.text.value, None))
    && (p.cookingTime.Some? ==> CookingTimeInRange(p.cookingTime.value))
    && (p.tags.Some? ==>
          |p.tags.value| > 0 && forall t :: t in p.tags.value ==> t in TagIds(db.tags))
    && (p.ingredients.Some? ==> ItemsValid(p.ingredients.value, bounded))
  }

  /** An update payload that passes validation and whose rows, if
      present, the insert accepts. */
  ghost predicate UpdateValid(db: Db, p: Payload, partial: bool, bounded: bool) {
    && UpdateFieldsValid(db, p, partial, bounded)
    && (p.ingredients.Some? ==> InsertAccepts(db, p.ingredients.value))
  }

  function ValidateOptionalTags(db: Db, tags: Option<seq<TagId>>): (r: Result<Option<set<TagId>>, WriteError>)
    ensures r.Ok? <==> (tags.Some? ==> |tags.value| > 0 && forall t :: t in tags.value ==> t in TagIds(db.tags))
    ensures r.Err? ==> r.error.Status() == BadRequest
    ensures r.Ok? ==> (r.value.Some? <==> tags.Some?)
    ensures r.Ok? && tags.Some? ==> forall t :: t in r.value.value <==> t in tags.value
  {
    match tags
    case None => Ok(None)
    case Some(ts) =>
      var set_ :- ValidateTags(TagIds(db.tags), ts);
      Ok(Some(set_))
  }

  function ValidateOptionalIngredients(db: Db, items: Option<seq<IngredientAmount>>, bounded: bool)
    : (r: Result<Option<seq<IngredientAmount>>, WriteError>)
    ensures r.Ok? <==> (items.Some? ==> ItemsValid(items.value, bounded) && InsertAccepts(db, items.value))
    ensures r.Err? ==> r.error.Status() == if ItemsValid(items.value, bounded) then ServerError else BadRequest
    ensures r.Ok? ==> r.value == items
  {
    match items
    case None => Ok(None)
    case Some(its) =>
      var checked :- CheckIngredients(its, bounded);
      var stored :- CheckInsert(db, checked);
      Ok(Some(stored))
  }

  /** Validation of an update payload; on success, the stripped name and
      text, the tag set and the ingredient items to write, each present
      exactly when its field is. A field error is a 400; a negative amount
      or an unknown ingredient fails the insert, a 500. */
  function ValidateUpdate(db: Db, p: Payload, partial: bool, bounded: bool): (r: Result<Validated, WriteError>)
    ensures r.Ok? <==> UpdateValid(db, p, partial, bounded)
    ensures r.Err? ==> r.error.Status() == if UpdateFieldsValid(db, p, partial, bounded) then ServerError else BadRequest
    ensures r.Ok? ==>
              && (r.value.name.Some? <==> p.name.Some?)
              && (p.name.Some? ==> r.value.name.value == Strip(p.name.value))
              && (p.name.Some? ==> 0 < |r.value.name.value| <= MaxRecipeNameLength)
              && (r.value.text.Some? <==> p.text.Some?)
              && (p.text.Some? ==> r.value.text.value == Strip(p.text.value) && |r.value.text.value| > 0)
              && (r.value.tags.Some? <==> p.tags.Some?)
              && (p.tags.Some? ==> forall t :: t in r.value.tags.value <==> t in p.tags.value)
              && r.value.items == p.ingredients
  {
    if !partial && !p.Complete() then Err(MissingField)
    else
      var name :- CleanOptionalText(p.name, Some(MaxRecipeNameLength));
      var text :- CleanOptionalText(p.text, None);
      if p.cookingTime.Some? && !CookingTimeInRange(p.cookingTime.value) then Err(CookingTimeOutOfRange)
      else
        var tags :- ValidateOptionalTags(db, p.tags);
        var items :- ValidateOptionalIngredients(db, p.ingredients, bounded);
        Ok(Validated(name, text, tags, items))
  }

  /** The recipe's through rows after the update: replaced wholesale by the
      new items when present, untouched otherwise. */
  function ReplaceRows(rows: seq<RecipeIngredient>, id: RecipeId, items: Option<seq<IngredientAmount>>)
    : (r: seq<RecipeIngredient>)
    ensures items.Some? ==> PayloadOf(RowsOf(r, id)) == items.value
    ensures items.None? ==> r == rows
    ensures forall other :: other != id ==> RowsOf(r, other) == RowsOf(rows, other)
    ensures forall x :: x in r ==>
              x in rows || (items.Some? && x.recipe == id && IngredientAmount(x.ingredient, x.amount) in items.value)
    ensures items.Some? ==> forall it :: it in items.value ==> RecipeIngredient(id, it.id, it.amount) in r
  {
    match items
    case None => rows
    case Some(its) =>
      ReplacedRows(rows, id, its);
      PayloadRowsAdded(id, its);
      ClearRows(rows, id) + AddIngredients(id, its)
  }

  /** The recipe row after the update: present fields overwrite, absent
      fields, the author and the publication date stay. */
  function Updated(before: Recipe, p: Payload, v: Validated): Recipe {
    Recipe(
      before.id,
      before.author,
      if v.name.Some? then v.name.value else before.name,
      if p.image.Some? then p.image.value else before.image,
      if v.text.Some? then v.text.value else before.text,
      if v.tags.Some? then v.tags.value else before.tags,
      if p.cookingTime.Some? then p.cookingTime.value else before.cookingTime,
      before.pubDate)
  }

  /** `update` of the recipe with primary key `id` (a PATCH when `partial`,
      a PUT otherwise): a present `ingredients` list replaces the recipe's
      through rows wholesale, a present `tags` list becomes exactly its tag
      set, present scalar fields are overwritten (the name and text
      stripped), and whatever is absent is left untouched. `bounded` is as
      for Create. */
  function Update(db: Db, id: RecipeId, p: Payload, partial: bool, bounded: bool): (r: Result<Written, WriteError>)
    ensures id !in RecipeIds(db.recipes) ==> r == Err(RecipeNotFound)
    ensures id in RecipeIds(db.recipes) ==> (r.Ok? <==> UpdateValid(db, p, partial, bounded))
    ensures r.Err? ==> r.error.Status() ==
                       (if id !in RecipeIds(db.recipes) then NotFound
                        else if UpdateFieldsValid(db, p, partial, bounded) then ServerError
                        else BadRequest)
    ensures p.tags == Some([]) ==> r.Err?
    ensures p.ingredients == Some([]) ==> r.Err?
    ensures r.Ok? ==>
              var w := r.value;
              var before := FindRecipe(db.recipes, id).value;
              && w.recipe.id == id && w.recipe in w.db.recipes
              && RecipeIds(w.db.recipes) == RecipeIds(db.recipes)
              && |w.db.recipes| == |db.recipes|
              && (forall i :: 0 <= i < |db.recipes| ==> w.db.recipes[i].id == db.recipes[i].id)
              && w.recipe.author == before.author && w.recipe.pubDate == before.pubDate
              && (p.ingredients.Some? ==> PayloadOf(RowsOf(w.db.recipeIngredients, id)) == p.ingredients.value)
              && (p.ingredients.Some? ==> forall it :: it in p.ingredients.value ==>
                    RecipeIngredient(id, it.id, it.amount) in w.db.recipeIngredients)
              && (p.ingredients.None? ==> w.db.recipeIngredients == db.recipeIngredients)
              && (forall other :: other != id ==>
                    RowsOf(w.db.recipeIngredients, other) == RowsOf(db.recipeIngredients, other))
              && (p.tags.Some? ==> forall t :: t in w.recipe.tags <==> t in p.tags.value)
              && (p.tags.None? ==> w.recipe.tags == before.tags)
              && w.recipe.cookingTime == (if p.cookingTime.Some? then p.cookingTime.value else before.cookingTime)
              && w.recipe.name == (if p.name.Some? then Strip(p.name.value) else before.name)
              && w.recipe.text == (if p.text.Some? then Strip(p.text.value) else before.text)
              && (p.name.Some? ==> |w.recipe.name| > 0 && |w.recipe.name| <= MaxRecipeNameLength)
              && (p.text.Some? ==> |w.recipe.text| > 0)
              && w.recipe.image == (if p.image.Some? then p.image.value else before.image)
              && (forall y :: y in w.db.recipes && y.id != id ==> y in db.recipes)
              && w.db.(recipes := db.recipes, recipeIngredients := db.recipeIngredients) == db
              && (forall x :: x in w.db.recipeIngredients ==>
                    x in db.recipeIngredients
                    || (x.recipe == id && p.ingredients.Some? && IngredientAmount(x.ingredient, x.amount) in p.ingredients.value))
  {
    match FindRecipe(db.recipes, id)
    case None => Err(RecipeNotFound)
    case Some(before) =>
      var valid :- ValidateUpdate(db, p, partial, bounded);
      var after := Updated(before, p, valid);
      var db' := db.(recipes := ReplaceRecipe(db.recipes, after),
                     recipeIngredients := ReplaceRows(db.recipeIngredients, id, valid.items));
      Ok(Written(db', after))
  }

  // ---------------------------------------------------------------------
  // Invariant preservation
  // ---------------------------------------------------------------------

  /** Appending a recipe with an unused id keeps ids unique and adds that
      id. */
  lemma AppendFreshRecipe(rs: seq<Recipe>, x: Recipe)
    requires UniqueRecipeIds(rs) && x.id !in RecipeIds(rs)
    ensures UniqueRecipeIds(rs + [x])
    ensures RecipeIds(rs + [x]) == RecipeIds(rs) + {x.id}
  {
    var r := rs + [x];
    forall i, j | 0 <= i < j < |r|
      ensures r[i].id != r[j].id
    {
      assert r[i] == rs[i];
      if j == |rs| {
        assert rs[i] in rs;
      } else {
        assert r[j] == rs[j];
      }
    }
  }

  /** A write that keeps the ingredient table and every recipe id, and
      whose new through rows are exactly the payload's rows for a recipe
      that exists, leaves the through rows well-formed exactly when the
      payload's amounts lie within their bounds. */
  lemma WrittenRowsWellformed(db: Db, db': Db, id: RecipeId, items: seq<IngredientAmount>)
    requires RecipeIngredientsWellformed(db)
    requires db'.ingredients == db.ingredients
    requires RecipeIds(db.recipes) <= RecipeIds(db'.recipes) && id in RecipeIds(db'.recipes)
    requires IngredientsKnown(db, items)
    requires forall x :: x in db'.recipeIngredients ==>
               x in db.recipeIngredients || (x.recipe == id && IngredientAmount(x.ingredient, x.amount) in items)
    requires forall it :: it in items ==> RecipeIngredient(id, it.id, it.amount) in db'.recipeIngredients
    ensures RecipeIngredientsWellformed(db') <==> AmountsInRange(items)
  {
    if AmountsInRange(items) {
      forall x | x in db'.recipeIngredients
        ensures AmountInRange(x.amount) && x.recipe in RecipeIds(db'.recipes)
                && x.ingredient in IngredientIds(db'.ingredients)
      {
        if x !in db.recipeIngredients {
          assert IngredientAmount(x.ingredient, x.amount) in items;
        }
      }
    } else {
      var it :| it in items && !AmountInRange(it.amount);
      assert RecipeIngredient(id, it.id, it.amount) in db'.recipeIngredients;
    }
  }

  /** Appending a recipe with an unused id, a valid cooking time, an
      existing author and existing tags, and changing nothing but the
      recipes and their through rows, keeps every invariant but the one on
      the through rows. */
  lemma AppendedRecipeWellformed(db: Db, db': Db, x: Recipe)
    requires Wellformed(db)
    requires db'.(recipeIngredients := db.recipeIngredients) == db.(recipes := db.recipes + [x])
    requires x.id !in RecipeIds(db.recipes)
    requires CookingTimeInRange(x.cookingTime) && x.author in db.users && x.tags <= TagIds(db.tags)
    ensures RecipeIds(db.recipes) <= RecipeIds(db'.recipes) && x.id in RecipeIds(db'.recipes)
    ensures RecipeIngredientsWellformed(db') ==> Wellformed(db')
  {
    AppendFreshRecipe(db.recipes, x);
    assert db'.recipes == db.recipes + [x];
  }

  /** A successful create by an existing user keeps every declared
      invariant exactly when the payload's amounts lie within their bounds:
      the primary key is fresh, the cooking time is validated, every foreign
      key resolves, and the amounts are stored as given. The bounded create
      therefore always keeps them. */
  lemma CreateKeepsWellformed(db: Db, user: UserId, p: Payload, now: int, bounded: bool)
    requires Wellformed(db) && user in db.users
    ensures var r := Create(db, user, p, now, bounded);
            r.Ok? ==> (Wellformed(r.value.db) <==> AmountsInRange(p.ingredients.value))
    ensures var r := Create(db, user, p, now, bounded);
            r.Ok? && bounded ==> Wellformed(r.value.db)
  {
    var r := Create(db, user, p, now, bounded);
    if r.Ok? {
      var w := r.value;
      assert CreateValid(db, p, bounded);
      assert w.recipe.tags <= TagIds(db.tags);
      AppendedRecipeWellformed(db, w.db, w.recipe);
      WrittenRowsWellformed(db, w.db, w.recipe.id, p.ingredients.value);
    }
  }

  /** A well-formed database with one user, one tag and one ingredient. */
  function ExampleDb(): Db {
    Db({7}, [Tag(1, "Breakfast", "#E26C2D", "breakfast")], [Ingredient(1, "flour", "g")], [], [], [], [], [])
  }

  /** A complete create payload with one ingredient of the given amount. */
  function ExamplePayload(amount: int): Payload {
    Payload(Some("Pie"), Some("recipes/images/pie.png"), Some("Bake."),
            Some([1]), Some([IngredientAmount(1, amount)]), Some(10))
  }

  /** A value with no whitespace at its ends and no NUL character, within
      the length limit, is stored as it is. */
  lemma CleanStrippedText(s: string, maxLength: Option<nat>)
    requires |s| > 0 && Stripped(s) && (forall k :: 0 <= k < |s| ==> s[k] != '\0')
    requires maxLength.Some? ==> |s| <= maxLength.value
    ensures CleanText(s, maxLength) == Ok(s)
  {
    assert [] + s + [] == s;
    StripUnique([], s, []);
  }

  lemma ExampleTextClean()
    ensures CleanText("Pie", Some(MaxRecipeNameLength)) == Ok("Pie")
    ensures CleanText("Bake.", None) == Ok("Bake.")
  {
    CleanStrippedText("Pie", Some(MaxRecipeNameLength));
    CleanStrippedText("Bake.", None);
  }

  /** Leading and trailing whitespace is dropped, and a value of nothing
      but whitespace is refused as blank. */
  lemma CleanTextExample()
    ensures CleanText(" Pie\n", Some(MaxRecipeNameLength)) == Ok("Pie")
    ensures CleanText(" \t", Some(MaxRecipeNameLength)) == Err(BlankText)
  {
    assert " " + "Pie" + "\n" == " Pie\n";
    StripUnique(" ", "Pie", "\n");
    var blank := " \t";
    assert IsSpace(blank[0]) && IsSpace(blank[1]);
  }

  /** Every field of the example payload passes validation and its one
      row names an existing ingredient. */
  lemma ExampleFieldsValid(amount: int)
    ensures CreateFieldsValid(ExampleDb(), ExamplePayload(amount), false)
    ensures IngredientsKnown(ExampleDb(), ExamplePayload(amount).ingredients.value)
  {
    var db, p := ExampleDb(), ExamplePayload(amount);
    var items := p.ingredients.value;
    assert 1 in TagIds(db.tags) by {
      assert db.tags[0] in db.tags;
    }
    assert 1 in IngredientIds(db.ingredients) by {
      assert db.ingredients[0] in db.ingredients;
    }
    assert items[0] in items;
    ExampleTextClean();
  }

  /** The code as written stores an amount above the declared maximum: on a
      well-formed database a create with amount 10001 succeeds and leaves a
      database that breaks the amount bound, while the bounded create
      refuses it with a 400. */
  lemma CreateStoresOutOfRangeAmount()
    ensures Wellformed(ExampleDb())
    ensures Create(ExampleDb(), 7, ExamplePayload(MaxAmount + 1), 0, false).Ok?
    ensures !Wellformed(Create(ExampleDb(), 7, ExamplePayload(MaxAmount + 1), 0, false).value.db)
    ensures Create(ExampleDb(), 7, ExamplePayload(MaxAmount + 1), 0, true) == Err(AmountOutOfRange)
  {
    var p := ExamplePayload(MaxAmount + 1);
    ExampleFieldsValid(MaxAmount + 1);
    assert p.ingredients.value[0] in p.ingredients.value;
    CreateKeepsWellformed(ExampleDb(), 7, p, 0, false);
    BoundedCreateRefusesExample();
  }

  lemma BoundedCreateRefusesExample()
    ensures Create(ExampleDb(), 7, ExamplePayload(MaxAmount + 1), 0, true) == Err(AmountOutOfRange)
  {
    var db, p := ExampleDb(), ExamplePayload(MaxAmount + 1);
    assert 1 in TagIds(db.tags) by {
      assert db.tags[0] in db.tags;
    }
    AmountBoundNotEnforced();
    ExampleTextClean();
    assert ValidateTags(TagIds(db.tags), p.tags.value).Ok?;
    assert CheckIngredients(p.ingredients.value, true) == Err(AmountOutOfRange);
  }

  /** A negative amount passes the as-written validation and fails the
      amount column's check in the insert: the create answers 500 and
      stores nothing. */
  lemma NegativeAmountFailsInsert()
    ensures Create(ExampleDb(), 7, ExamplePayload(-1), 0, false) == Err(NegativeAmount)
    ensures NegativeAmount.Status() == ServerError
  {
    var p := ExamplePayload(-1);
    ExampleFieldsValid(-1);
    assert p.ingredients.value[0] in p.ingredients.value;
  }

  /** A name of nothing but whitespace is refused with 400, whatever the
      rest of the payload. */
  lemma CreateRefusesBlankName(db: Db, user: UserId, p: Payload, now: int, bounded: bool)
    requires p.Complete() && p.name == Some(" \t")
    ensures Create(db, user, p, now, bounded) == Err(BlankText)
  {
    CleanTextExample();
  }

  /** Rewriting rows in place, keeping each position's id, keeps ids
      unique. */
  lemma SameIdsKeepUnique(rs: seq<Recipe>, rs': seq<Recipe>)
    requires UniqueRecipeIds(rs)
    requires |rs'| == |rs| && forall i :: 0 <= i < |rs| ==> rs'[i].id == rs[i].id
    ensures UniqueRecipeIds(rs')
  {
  }

  /** Rewriting the recipes in place with well-formed rows and the same
      ids, and changing nothing but the recipes and their through rows,
      keeps every invariant but the one on the through rows. */
  lemma RewrittenRecipesWellformed(db: Db, db': Db)
    requires Wellformed(db)
    requires db'.(recipes := db.recipes, recipeIngredients := db.recipeIngredients) == db
    requires RecipesWellformed(db') && RecipeIds(db'.recipes) == RecipeIds(db.recipes)
    ensures RecipeIngredientsWellformed(db') <==> Wellformed(db')
  {
  }

  /** A successful update keeps every declared invariant exactly when the
      amounts of a present ingredient list lie within their bounds, so the
      bounded update always keeps them. */
  lemma UpdateKeepsWellformed(db: Db, id: RecipeId, p: Payload, partial: bool, bounded: bool)
    requires Wellformed(db)
    ensures var r := Update(db, id, p, partial, bounded);
            r.Ok? ==> (Wellformed(r.value.db) <==> (p.ingredients.Some? ==> AmountsInRange(p.ingredients.value)))
    ensures var r := Update(db, id, p, partial, bounded);
            r.Ok? && bounded ==> Wellformed(r.value.db)
  {
    var r := Update(db, id, p, partial, bounded);
    UpdateKeepsRecipes(db, id, p, partial, bounded);
    UpdateKeepsRows(db, id, p, partial, bounded);
    if r.Ok? {
      RewrittenRecipesWellformed(db, r.value.db);
    }
  }

  lemma UpdateKeepsRecipes(db: Db, id: RecipeId, p: Payload, partial: bool, bounded: bool)
    requires Wellformed(db)
    ensures var r := Update(db, id, p, partial, bounded);
            r.Ok? ==> RecipesWellformed(r.value.db)
  {
    var r := Update(db, id, p, partial, bounded);
    if r.Err? {
      return;
    }
    var w := r.value;
    SameIdsKeepUnique(db.recipes, w.db.recipes);
    assert w.db.users == db.users && w.db.tags == db.tags;
    forall y | y in w.db.recipes
      ensures CookingTimeInRange(y.cookingTime) && y.author in w.db.users && y.tags <= TagIds(w.db.tags)
    {
      if y.id == id {
        assert y == w.recipe;
      }
    }
  }

  lemma UpdateKeepsRows(db: Db, id: RecipeId, p: Payload, partial: bool, bounded: bool)
    requires Wellformed(db)
    ensures var r := Update(db, id, p, partial, bounded);
            r.Ok? ==> (RecipeIngredientsWellformed(r.value.db) <==>
                       (p.ingredients.Some? ==> AmountsInRange(p.ingredients.value)))
  {
    var r := Update(db, id, p, partial, bounded);
    if r.Err? {
      return;
    }
    var w := r.value;
    if p.ingredients.Some? {
      WrittenRowsWellformed(db, w.db, id, p.ingredients.value);
    }
  }
}

=== FILE: rows.dfy ===
/** Tables as sequences of rows: the generic row operations the views perform
    through the ORM (delete every matching row, keep the rows a predicate
    selects) and the uniqueness notion that the models' unique constraints
    impose on a table. */
module Rows {

  /** Every row occurs at most once: the effect of a unique constraint. */
  ghost predicate NoDuplicates<T(!new)>(t: seq<T>) {
    forall x :: multiset(t)[x] <= 1
  }

  /** The distinct values occurring in a sequence. */
  function Elements<T(==)>(s: seq<T>): set<T> {
    set x | x in s
  }

  /** Deletes every row equal to x, as `queryset.filter(...).delete()` does. */
  function Remove<T(==,!new)>(t: seq<T>, x: T): (r: seq<T>)
    ensures x !in r
    ensures multiset(r)[x] == 0
    ensures forall y :: y != x ==> multiset(r)[y] == multiset(t)[y]
    ensures forall y :: y != x ==> (y in r <==> y in t)
    ensures x !in t ==> r == t
  {
    if |t| == 0 then []
    else
      assert t == [t[0]] + t[1..];
      if t[0] == x then Remove(t[1..], x)
      else [t[0]] + Remove(t[1..], x)
  }

  /** Keeps, in order, the rows that satisfy p, as `queryset.filter(...)` does. */
  function Filter<T(!new)>(s: seq<T>, p: T -> bool): (r: seq<T>)
    ensures forall x :: x in r <==> x in s && p(x)
    ensures multiset(r) <= multiset(s)
    ensures forall x :: multiset(r)[x] == if p(x) then multiset(s)[x] else 0
    ensures (forall x :: x in s ==> p(x)) ==> r == s
    ensures (forall x :: x in s ==> !p(x)) ==> r == []
  {
    if |s| == 0 then []
    else
      assert s == [s[0]] + s[1..];
      if p(s[0]) then [s[0]] + Filter(s[1..], p) else Filter(s[1..], p)
  }

  /** One step of Filter: the head is kept exactly when it satisfies p. */
  lemma FilterCons<T(!new)>(s: seq<T>, p: T -> bool)
    requires |s| > 0
    ensures Filter(s, p) == if p(s[0]) then [s[0]] + Filter(s[1..], p) else Filter(s[1..], p)
  {
  }

  /** Filtering distributes over concatenation: the rows kept from a
      table are the rows kept from its first part followed by those kept
      from the rest, so the input's order is kept. */
  lemma {:induction false} FilterConcat<T(!new)>(a: seq<T>, b: seq<T>, p: T -> bool)
    ensures Filter(a + b, p) == Filter(a, p) + Filter(b, p)
  {
    if |a| == 0 {
      assert a + b == b;
      assert Filter(a, p) == [];
    } else {
      var c := a + b;
      assert c[0] == a[0] && c[1..] == a[1..] + b;
      FilterConcat(a[1..], b, p);
      var fa, fb, fc := Filter(a[1..], p), Filter(b, p), Filter(c[1..], p);
      assert fc == fa + fb;
      if p(a[0]) {
        AppendAssoc([a[0]], fa, fb);
      }
    }
  }

  /** Concatenation is associative. */
  lemma AppendAssoc<T>(u: seq<T>, v: seq<T>, w: seq<T>)
    ensures u + (v + w) == (u + v) + w
  {
  }

  /** Filtering two arrangements of the same rows keeps the same number of
      rows. */
  lemma FilterPermutation<T(!new)>(a: seq<T>, b: seq<T>, p: T -> bool)
    requires multiset(a) == multiset(b)
    ensures multiset(Filter(a, p)) == multiset(Filter(b, p))
    ensures |Filter(a, p)| == |Filter(b, p)|
  {
    assert multiset(Filter(a, p)) == multiset(Filter(b, p)) by {
      forall x
        ensures multiset(Filter(a, p))[x] == multiset(Filter(b, p))[x]
      {
      }
    }
    assert |multiset(Filter(a, p))| == |multiset(Filter(b, p))|;
  }

  /** Inserting a row that was absent and then deleting it gives back the
      table exactly, row order included. */
  lemma {:induction false} RemoveAppended<T(!new)>(t: seq<T>, x: T)
    requires x !in t
    ensures Remove(t + [x], x) == t
  {
    if |t| == 0 {
      assert t + [x] == [x];
    } else {
      assert (t + [x])[0] == t[0];
      assert (t + [x])[1..] == t[1..] + [x];
      RemoveAppended(t[1..], x);
    }
  }

  /** A table without duplicates stays so after inserting an absent row. */
  lemma AppendKeepsNoDuplicates<T(!new)>(t: seq<T>, x: T)
    requires NoDuplicates(t) && x !in t
    ensures NoDuplicates(t + [x])
  {
    assert multiset(t + [x]) == multiset(t) + multiset{x};
  }

  /** A table without duplicates stays so after deleting rows. */
  lemma RemoveKeepsNoDuplicates<T(!new)>(t: seq<T>, x: T)
    requires NoDuplicates(t)
    ensures NoDuplicates(Remove(t, x))
  {
    var r := Remove(t, x);
    forall y
      ensures multiset(r)[y] <= 1
    {
      if y != x {
        assert multiset(r)[y] == multiset(t)[y];
      }
    }
  }

  /** Python's duplicate test `len(xs) != len(set(xs))` decides exactly
      whether some value occurs twice. */
  lemma {:induction false} DistinctIffCardinality<T(!new)>(s: seq<T>)
    ensures |Elements(s)| == |s| <==> NoDuplicates(s)
  {
    if |s| == 0 {
      assert Elements(s) == {};
    } else {
      var a, s' := s[0], s[1..];
      assert s == [a] + s';
      assert Elements(s) == {a} + Elements(s');
      assert multiset(s) == multiset{a} + multiset(s');
      DistinctIffCardinality(s');
      ElementsBound(s');
      if a in s' {
        assert Elements(s) == Elements(s');
        assert multiset(s)[a] >= 2;
      } else {
        assert a !in Elements(s');
        assert multiset(s')[a] == 0;
        if NoDuplicates(s') {
          forall y
            ensures multiset(s)[y] <= 1
          {
            assert multiset(s)[y] == multiset{a}[y] + multiset(s')[y];
          }
        } else {
          var y :| multiset(s')[y] > 1;
          assert multiset(s)[y] >= multiset(s')[y];
        }
      }
    }
  }

  /** No value occurs twice exactly when the values at any two different
      positions differ. */
  lemma {:induction false} NoDuplicatesPairwise<T(!new)>(s: seq<T>)
    ensures NoDuplicates(s) <==> forall i, j :: 0 <= i < j < |s| ==> s[i] != s[j]
  {
    if |s| > 0 {
      var a, s' := s[0], s[1..];
      assert s == [a] + s';
      assert multiset(s) == multiset{a} + multiset(s');
      NoDuplicatesPairwise(s');
      if a in s' {
        var m :| 0 <= m < |s'| && s'[m] == a;
        assert s[m + 1] == a;
        assert multiset(s)[a] >= 2;
      } else {
        assert multiset(s')[a] == 0;
        assert NoDuplicates(s) <==> NoDuplicates(s') by {
          if NoDuplicates(s') {
            forall y
              ensures multiset(s)[y] <= 1
            {
              assert multiset(s)[y] == multiset{a}[y] + multiset(s')[y];
            }
          }
          if NoDuplicates(s) {
            forall y
              ensures multiset(s')[y] <= 1
            {
              assert multiset(s)[y] == multiset{a}[y] + multiset(s')[y];
            }
          }
        }
        assert (forall i, j :: 0 <= i < j < |s| ==> s[i] != s[j]) <==>
               (forall i, j :: 0 <= i < j < |s'| ==> s'[i] != s'[j]) by {
          if forall i, j :: 0 <= i < j < |s'| ==> s'[i] != s'[j] {
            forall i, j | 0 <= i < j < |s|
              ensures s[i] != s[j]
            {
              if i == 0 {
                assert s[j] == s'[j - 1];
              } else {
                assert s[i] == s'[i - 1] && s[j] == s'[j - 1];
              }
            }
          }
          if forall i, j :: 0 <= i < j < |s| ==> s[i] != s[j] {
            forall i, j | 0 <= i < j < |s'|
              ensures s'[i] != s'[j]
            {
              assert s'[i] == s[i + 1] && s'[j] == s[j + 1];
            }
          }
        }
      }
    }
  }

  /** There are never more distinct values than positions. */
  lemma {:induction false} ElementsBound<T>(s: seq<T>)
    ensures |Elements(s)| <= |s|
  {
    if |s| > 0 {
      assert s == [s[0]] + s[1..];
      assert Elements(s) == {s[0]} + Elements(s[1..]);
      ElementsBound(s[1..]);
    } else {
      assert Elements(s) == {};
    }
  }
}

=== FILE: shopping_list.dfy ===
/** The shopping-list aggregation of `download_shopping_cart`
    (backend/api/views.py): take the through rows of every recipe in the
    user's cart, group them by the ingredient's (name, measurement unit) and
    sum their amounts. The text rendering of the result is not modelled, and
    no order of the lines is promised. */
module ShoppingList {
  import opened Common
  import opened Models
  import Rows

  /** The grouping key: an ingredient's name and measurement unit. */
  datatype Key = Key(name: string, unit: string)

  /** One through row of a carted recipe, joined with its ingredient. */
  datatype Item = Item(key: Key, amount: int)

  /** One line of the list: a key and the summed amount. */
  datatype Line = Line(key: Key, total: int)

  /** The recipes the user has in the cart. */
  function CartedRecipes(cart: seq<Edge>, user: UserId): (r: set<RecipeId>)
    ensures forall id :: id in r <==> Edge(user, id) in cart
    ensures r == {} <==> forall e :: e in cart ==> e.user != user
  {
    set e | e in cart && e.user == user :: e.recipe
  }

  /** A through row that takes part in the join: its recipe is carted and
      its ingredient exists. */
  predicate Joins(ri: RecipeIngredient, ings: seq<Ingredient>, carted: set<RecipeId>) {
    ri.recipe in carted && ri.ingredient in IngredientIds(ings)
  }

  /** The through rows whose recipe is carted, in table order, each joined
      with its ingredient's (name, unit); a row whose ingredient is missing
      drops out of the join. */
  function CartItems(rows: seq<RecipeIngredient>, ings: seq<Ingredient>, carted: set<RecipeId>): (r: seq<Item>)
    ensures |r| <= |rows|
    ensures forall it :: it in r ==>
              exists ri, ing :: ri in rows && ing in ings && ri.recipe in carted && ing.id == ri.ingredient
                                && it == Item(Key(ing.name, ing.unit), ri.amount)
    ensures forall ri, ing :: ri in rows && ri.recipe in carted && FindIngredient(ings, ri.ingredient) == Some(ing) ==>
              Item(Key(ing.name, ing.unit), ri.amount) in r
  {
    if |rows| == 0 then []
    else
      assert rows == [rows[0]] + rows[1..];
      var rest := CartItems(rows[1..], ings, carted);
      if rows[0].recipe in carted then
        match FindIngredient(ings, rows[0].ingredient)
        case Some(ing) => [Item(Key(ing.name, ing.unit), rows[0].amount)] + rest
        case None => rest
      else rest
  }

  /** The join yields exactly one item per through row that takes part in
      it. */
  lemma {:induction false} CartItemsCount(rows: seq<RecipeIngredient>, ings: seq<Ingredient>, carted: set<RecipeId>)
    ensures |CartItems(rows, ings, carted)| == |Rows.Filter(rows, (ri: RecipeIngredient) => Joins(ri, ings, carted))|
  {
    if |rows| > 0 {
      Rows.FilterCons(rows, (ri: RecipeIngredient) => Joins(ri, ings, carted));
      CartItemsCount(rows[1..], ings, carted);
    }
  }

  // ---------------------------------------------------------------------
  // The reference sums
  // ---------------------------------------------------------------------

  /** The item's own contribution to the total of key k. */
  function Share(it: Item, k: Key): int {
    if it.key == k then it.amount else 0
  }

  /** The sum of the amounts of the items with key k. */
  function Total(items: seq<Item>, k: Key): int {
    if |items| == 0 then 0
    else Share(items[0], k) + Total(items[1..], k)
  }

  /** The sum of all amounts. */
  function SumAmounts(items: seq<Item>): int {
    if |items| == 0 then 0 else items[0].amount + SumAmounts(items[1..])
  }

  function ItemKeys(items: seq<Item>): set<Key> {
    set it | it in items :: it.key
  }

  function KeysOf(lines: seq<Line>): set<Key> {
    set l | l in lines :: l.key
  }

  function LinesTotal(lines: seq<Line>): int {
    if |lines| == 0 then 0 else lines[0].total + LinesTotal(lines[1..])
  }

  /** Each key on at most one line. */
  ghost predicate DistinctKeys(lines: seq<Line>) {
    forall i, j :: 0 <= i < j < |lines| ==> lines[i].key != lines[j].key
  }

  /** The total on the first line with key k, or 0 when there is none. */
  function Lookup(lines: seq<Line>, k: Key): int {
    if |lines| == 0 then 0
    else if lines[0].key == k then lines[0].total
    else Lookup(lines[1..], k)
  }

  // ---------------------------------------------------------------------
  // Grouping
  // ---------------------------------------------------------------------

  /** Adds one item to a list of lines: onto the line with its key, or as a
      new line at the end. */
  function Bump(lines: seq<Line>, it: Item): (r: seq<Line>)
    ensures forall k :: Lookup(r, k) == Lookup(lines, k) + Share(it, k)
    ensures KeysOf(r) == KeysOf(lines) + {it.key}
    ensures DistinctKeys(lines) ==> DistinctKeys(r)
    ensures LinesTotal(r) == LinesTotal(lines) + it.amount
  {
    if |lines| == 0 then
      [Line(it.key, it.amount)]
    else
      assert lines == [lines[0]] + lines[1..];
      assert KeysOf(lines) == {lines[0].key} + KeysOf(lines[1..]);
      if lines[0].key == it.key then
        var r := [Line(it.key, lines[0].total + it.amount)] + lines[1..];
        assert r[1..] == lines[1..];
        assert KeysOf(r) == {it.key} + KeysOf(lines[1..]);
        r
      else
        var tail := Bump(lines[1..], it);
        var r := [lines[0]] + tail;
        assert r[1..] == tail;
        assert KeysOf(r) == {lines[0].key} + KeysOf(tail);
        assert DistinctKeys(lines) ==> DistinctKeys(r) by {
          if DistinctKeys(lines) {
            DistinctTail(lines);
            ConsDistinct(lines[0], tail);
          }
        }
        r
  }

  lemma DistinctTail(lines: seq<Line>)
    requires DistinctKeys(lines) && |lines| > 0
    ensures DistinctKeys(lines[1..])
    ensures lines[0].key !in KeysOf(lines[1..])
  {
    forall l | l in lines[1..]
      ensures l.key != lines[0].key
    {
      var j :| 0 <= j < |lines[1..]| && lines[1..][j] == l;
      assert lines[j + 1] == l;
    }
  }

  lemma ConsDistinct(l: Line, tail: seq<Line>)
    requires DistinctKeys(tail) && l.key !in KeysOf(tail)
    ensures DistinctKeys([l] + tail)
  {
    var r := [l] + tail;
    forall i, j | 0 <= i < j < |r|
      ensures r[i].key != r[j].key
    {
      assert r[j] == tail[j - 1];
      if i == 0 {
        assert tail[j - 1] in tail;
      } else {
        assert r[i] == tail[i - 1];
      }
    }
  }

  /** The grouped list: one line per key, holding the key's total. */
  function Group(items: seq<Item>): (r: seq<Line>)
    ensures DistinctKeys(r)
    ensures KeysOf(r) == ItemKeys(items)
    ensures forall k :: Lookup(r, k) == Total(items, k)
    ensures LinesTotal(r) == SumAmounts(items)
  {
    if |items| == 0 then []
    else
      assert items == [items[0]] + items[1..];
      assert ItemKeys(items) == {items[0].key} + ItemKeys(items[1..]);
      Bump(Group(items[1..]), items[0])
  }

  /** On lines with distinct keys, each line's total is what Lookup finds. */
  lemma {:induction false} LookupFindsEachLine(lines: seq<Line>)
    requires DistinctKeys(lines)
    ensures forall i :: 0 <= i < |lines| ==> Lookup(lines, lines[i].key) == lines[i].total
  {
    if |lines| > 0 {
      LookupFindsEachLine(lines[1..]);
      forall i | 0 < i < |lines|
        ensures Lookup(lines, lines[i].key) == lines[i].total
      {
        assert lines[i] == lines[1..][i - 1];
      }
    }
  }

  /** `GET /recipes/download_shopping_cart/`: an empty cart is rejected with
      400; otherwise the list holds each (name, unit) key of the carted
      recipes' rows exactly once, with the sum of those rows' amounts, and
      the totals add up to the sum of all those amounts. */
  function DownloadShoppingCart(db: Db, user: UserId): (r: Result<seq<Line>, Status>)
    ensures r.Err? <==> forall e :: e in db.shoppingCart ==> e.user != user
    ensures r.Err? ==> r.error == BadRequest
    ensures r.Ok? ==>
              var items := CartItems(db.recipeIngredients, db.ingredients, CartedRecipes(db.shoppingCart, user));
              && DistinctKeys(r.value)
              && KeysOf(r.value) == ItemKeys(items)
              && (forall i :: 0 <= i < |r.value| ==> r.value[i].total == Total(items, r.value[i].key))
              && LinesTotal(r.value) == SumAmounts(items)
  {
    var carted := CartedRecipes(db.shoppingCart, user);
    assert forall e :: e in db.shoppingCart && e.user == user ==> e.recipe in carted;
    if carted == {} then
      Err(BadRequest)
    else
      var lines := Group(CartItems(db.recipeIngredients, db.ingredients, carted));
      LookupFindsEachLine(lines);
      Ok(lines)
  }

  // ---------------------------------------------------------------------
  // Order independence
  // ---------------------------------------------------------------------

  lemma {:induction false} TotalConcat(a: seq<Item>, b: seq<Item>, k: Key)
    ensures Total(a + b, k) == Total(a, k) + Total(b, k)
  {
    if |a| > 0 {
      assert (a + b)[1..] == a[1..] + b;
      TotalConcat(a[1..], b, k);
    } else {
      assert a + b == b;
    }
  }

  /** Taking the item at position j out of the sequence removes exactly its
      share from the total. */
  lemma TotalRemoveAt(b: seq<Item>, j: nat, k: Key)
    requires j < |b|
    ensures Total(b, k) == Share(b[j], k) + Total(b[..j] + b[j + 1..], k)
  {
    assert b == b[..j] + ([b[j]] + b[j + 1..]);
    TotalConcat(b[..j], [b[j]] + b[j + 1..], k);
    TotalConcat(b[..j], b[j + 1..], k);
    assert ([b[j]] + b[j + 1..])[1..] == b[j + 1..];
  }

  lemma MultisetRemoveAt(b: seq<Item>, j: nat)
    requires j < |b|
    ensures multiset(b[..j] + b[j + 1..]) == multiset(b) - multiset{b[j]}
  {
    assert b == b[..j] + [b[j]] + b[j + 1..];
  }

  /** A key's total depends only on the multiset of items, not their order. */
  lemma {:induction false} TotalPermutation(a: seq<Item>, b: seq<Item>, k: Key)
    requires multiset(a) == multiset(b)
    ensures Total(a, k) == Total(b, k)
  {
    if |a| == 0 {
      assert |b| == |multiset(b)| == 0;
    } else {
      var x := a[0];
      assert a == [x] + a[1..];
      assert multiset(a[1..]) == multiset(a) - multiset{x};
      assert x in multiset(b);
      var j :| 0 <= j < |b| && b[j] == x;
      MultisetRemoveAt(b, j);
      TotalPermutation(a[1..], b[..j] + b[j + 1..], k);
      TotalRemoveAt(b, j, k);
    }
  }

  /** Grouping the same rows in any order gives the same keys and totals. */
  lemma GroupOrderIrrelevant(a: seq<Item>, b: seq<Item>)
    requires multiset(a) == multiset(b)
    ensures KeysOf(Group(a)) == KeysOf(Group(b))
    ensures forall k :: Lookup(Group(a), k) == Lookup(Group(b), k)
  {
    assert ItemKeys(a) == ItemKeys(b) by {
      forall it | it in a
        ensures it in b
      {
        assert it in multiset(a);
      }
      forall it | it in b
        ensures it in a
      {
        assert it in multiset(b);
      }
    }
    forall k
      ensures Lookup(Group(a), k) == Lookup(Group(b), k)
    {
      TotalPermutation(a, b, k);
    }
  }

  /** The order in which recipes were put in the cart does not matter: any
      rearrangement of the cart table yields the same list. */
  lemma CartOrderIrrelevant(db: Db, cart: seq<Edge>, user: UserId)
    requires multiset(cart) == multiset(db.shoppingCart)
    ensures DownloadShoppingCart(db.(shoppingCart := cart), user) == DownloadShoppingCart(db, user)
  {
    assert CartedRecipes(cart, user) == CartedRecipes(db.shoppingCart, user) by {
      forall e | e in cart
        ensures e in db.shoppingCart
      {
        assert e in multiset(cart);
      }
      forall e | e in db.shoppingCart
        ensures e in cart
      {
        assert e in multiset(db.shoppingCart);
      }
    }
  }

  // ---------------------------------------------------------------------
  // Bounds
  // ---------------------------------------------------------------------

  lemma {:induction false} TotalAtLeastOne(items: seq<Item>, k: Key)
    requires forall it :: it in items ==> it.amount >= MinAmount
    requires k in ItemKeys(items)
    ensures Total(items, k) >= MinAmount
  {
    assert items == [items[0]] + items[1..];
    assert ItemKeys(items) == {items[0].key} + ItemKeys(items[1..]);
    TotalNonNegative(items[1..], k);
    if items[0].key != k {
      TotalAtLeastOne(items[1..], k);
    }
  }

  lemma {:induction false} TotalNonNegative(items: seq<Item>, k: Key)
    requires forall it :: it in items ==> it.amount >= 0
    ensures Total(items, k) >= 0
  {
    if |items| > 0 {
      assert items[0] in items;
      TotalNonNegative(items[1..], k);
    }
  }

  /** In a well-formed database every line of the list carries a positive
      amount, since every row's amount is at least 1. */
  lemma ListedTotalsPositive(db: Db, user: UserId)
    requires Wellformed(db)
    ensures var r := DownloadShoppingCart(db, user);
            r.Ok? ==> forall i :: 0 <= i < |r.value| ==> r.value[i].total >= MinAmount
  {
    var r := DownloadShoppingCart(db, user);
    if r.Ok? {
      var items := CartItems(db.recipeIngredients, db.ingredients, CartedRecipes(db.shoppingCart, user));
      forall i | 0 <= i < |r.value|
        ensures r.value[i].total >= MinAmount
      {
        assert r.value[i] in r.value;
        assert r.value[i].key in ItemKeys(items);
        TotalAtLeastOne(items, r.value[i].key);
      }
    }
  }

  /** The join of the example's last two through rows. */
  lemma FlourAndSugarTail()
    ensures CartItems([RecipeIngredient(2, 1, 300), RecipeIngredient(2, 2, 50)],
                      [Ingredient(1, "flour", "g"), Ingredient(2, "sugar", "g")], {1, 2})
         == [Item(Key("flour", "g"), 300), Item(Key("sugar", "g"), 50)]
  {
    var flour := Ingredient(1, "flour", "g");
    var sugar := Ingredient(2, "sugar", "g");
    var rows := [RecipeIngredient(2, 1, 300), RecipeIngredient(2, 2, 50)];
    assert FindIngredient([flour, sugar], 1) == Some(flour);
    assert FindIngredient([flour, sugar], 2) == Some(sugar);
    assert rows[1..] == [RecipeIngredient(2, 2, 50)];
    assert rows[1..][1..] == [];
    assert CartItems(rows[1..], [flour, sugar], {1, 2}) == [Item(Key("sugar", "g"), 50)];
  }

  /** The join of the example's through rows with its ingredients. */
  lemma FlourAndSugarItems()
    ensures CartItems([RecipeIngredient(1, 1, 200), RecipeIngredient(2, 1, 300), RecipeIngredient(2, 2, 50)],
                      [Ingredient(1, "flour", "g"), Ingredient(2, "sugar", "g")], {1, 2})
         == [Item(Key("flour", "g"), 200), Item(Key("flour", "g"), 300), Item(Key("sugar", "g"), 50)]
  {
    var flour := Ingredient(1, "flour", "g");
    var rows := [RecipeIngredient(1, 1, 200), RecipeIngredient(2, 1, 300), RecipeIngredient(2, 2, 50)];
    assert FindIngredient([flour, Ingredient(2, "sugar", "g")], 1) == Some(flour);
    assert rows[1..] == [RecipeIngredient(2, 1, 300), RecipeIngredient(2, 2, 50)];
    FlourAndSugarTail();
  }

  /** Cart holding recipe 1 (200 g flour) and recipe 2 (300 g flour, 50 g
      sugar): the list is 500 g flour and 50 g sugar. */
  lemma FlourAndSugarExample()
    ensures var flour := Ingredient(1, "flour", "g");
            var sugar := Ingredient(2, "sugar", "g");
            var db := Db({7}, [], [flour, sugar], [], [RecipeIngredient(1, 1, 200), RecipeIngredient(2, 1, 300), RecipeIngredient(2, 2, 50)],
                         [], [Edge(7, 1), Edge(7, 2)], []);
            var r := DownloadShoppingCart(db, 7);
            && r.Ok? && |r.value| == 2
            && Lookup(r.value, Key("flour", "g")) == 500
            && Lookup(r.value, Key("sugar", "g")) == 50
  {
    var flour := Ingredient(1, "flour", "g");
    var sugar := Ingredient(2, "sugar", "g");
    var db := Db({7}, [], [flour, sugar], [], [RecipeIngredient(1, 1, 200), RecipeIngredient(2, 1, 300), RecipeIngredient(2, 2, 50)],
                 [], [Edge(7, 1), Edge(7, 2)], []);
    assert CartedRecipes(db.shoppingCart, 7) == {1, 2};
    FlourAndSugarItems();
    var items := [Item(Key("flour", "g"), 200), Item(Key("flour", "g"), 300), Item(Key("sugar", "g"), 50)];
    assert DownloadShoppingCart(db, 7) == Ok(Group(items));
    assert Key("flour", "g") != Key("sugar", "g");
  }
}

=== FILE: subscriptions.dfy ===
/** Following authors: `CustomUserViewSet.subscribe` and `subscriptions`
    (backend/users/views.py) and the projection SubscriptionSerializer sends
    back (`is_subscribed`, `recipes` cut to `recipes_limit`, `recipes_count`,
    in backend/users/serializers.py).

    The Subscription model is not defined anywhere visible, so its table
    carries only its two foreign keys: no uniqueness and no self-follow
    check. A second POST for the same pair therefore inserts a second row,
    and the DELETE lookup, which expects one row, then fails. */
module Subscriptions {
  import opened Common
  import opened Models
  import Rows
  import Toggle

  /** `is_subscribed`: false for an anonymous caller; otherwise whether the
      caller follows the author. */
  function IsSubscribed(db: Db, caller: Caller, author: UserId): (b: bool)
    ensures caller.Anonymous? ==> !b
    ensures caller.Authenticated? ==>
              (b <==> exists f :: f in db.subscriptions && f.user == caller.id && f.author == author)
  {
    match caller
    case Anonymous => false
    case Authenticated(u) => Follow(u, author) in db.subscriptions
  }

  // ---------------------------------------------------------------------
  // The author projection
  // ---------------------------------------------------------------------

  /** The `recipes_limit` query parameter: absent, an integer, or text that
      does not parse as one. */
  datatype LimitParam = NoLimit | Limit(n: int) | Malformed

  /** Whether `int(recipes_limit)` and the slice `[:n]` succeed: the queryset
      refuses negative bounds. */
  predicate LimitUsable(limit: LimitParam) {
    limit.NoLimit? || (limit.Limit? && limit.n >= 0)
  }

  /** The author's recipes in the default newest-first order. */
  function AuthorRecipes(db: Db, author: UserId): (r: seq<Recipe>)
    ensures forall x :: x in r <==> x in db.recipes && x.author == author
    ensures NewestFirstOrder(r)
  {
    var all := NewestFirst(db.recipes);
    assert forall x :: x in all <==> x in multiset(db.recipes);
    FilterKeepsNewestFirst(all, (x: Recipe) => x.author == author);
    Rows.Filter(all, (x: Recipe) => x.author == author)
  }

  /** `get_recipes_count`: a count over the unordered table. */
  function RecipesCount(db: Db, author: UserId): (n: nat)
    ensures n == |AuthorRecipes(db, author)|
    ensures n == 0 <==> forall x :: x in db.recipes ==> x.author != author
  {
    var p := (x: Recipe) => x.author == author;
    Rows.FilterPermutation(db.recipes, NewestFirst(db.recipes), p);
    |Rows.Filter(db.recipes, p)|
  }

  /** The slice `[:n]` of a queryset, failing (500) on a limit that does not
      parse or is negative. */
  function Truncate(rs: seq<Recipe>, limit: LimitParam): (r: Result<seq<Recipe>, Status>)
    ensures r.Ok? <==> LimitUsable(limit)
    ensures r.Err? ==> r.error == ServerError
    ensures r.Ok? ==> r.value <= rs
    ensures limit.NoLimit? ==> r == Ok(rs)
    ensures r.Ok? && limit.Limit? ==> |r.value| == if limit.n < |rs| then limit.n else |rs|
  {
    match limit
    case NoLimit => Ok(rs)
    case Malformed => Err(ServerError)
    case Limit(n) =>
      if n < 0 then Err(ServerError)
      else if n < |rs| then Ok(rs[..n])
      else Ok(rs)
  }

  function Shorts(rs: seq<Recipe>): (r: seq<Toggle.ShortRecipe>)
    ensures |r| == |rs|
    ensures forall i :: 0 <= i < |rs| ==> r[i] == Toggle.Short(rs[i])
  {
    seq(|rs|, i requires 0 <= i < |rs| => Toggle.Short(rs[i]))
  }

  /** One serialized author: id, `is_subscribed`, `recipes`, `recipes_count`.
      The name and e-mail fields are plain copies and are not modelled. */
  datatype AuthorView = AuthorView(
    id: UserId,
    isSubscribed: bool,
    recipes: seq<Toggle.ShortRecipe>,
    recipesCount: nat)

  /** SubscriptionSerializer on one author, for the given caller. */
  function SubscriptionView(db: Db, caller: Caller, author: UserId, limit: LimitParam): (r: Result<AuthorView, Status>)
    ensures r.Ok? <==> LimitUsable(limit)
    ensures r.Err? ==> r.error == ServerError
    ensures r.Ok? ==>
              && r.value.id == author
              && r.value.isSubscribed == IsSubscribed(db, caller, author)
              && (exists rs :: rs <= AuthorRecipes(db, author) && r.value.recipes == Shorts(rs))
              && (limit.NoLimit? ==> r.value.recipes == Shorts(AuthorRecipes(db, author)))
              && (limit.Limit? ==> |r.value.recipes| == if limit.n < r.value.recipesCount then limit.n else r.value.recipesCount)
              && r.value.recipesCount == |AuthorRecipes(db, author)|
              && (r.value.recipesCount == 0 ==> r.value.recipes == [])
  {
    var rs :- Truncate(AuthorRecipes(db, author), limit);
    Ok(AuthorView(author, IsSubscribed(db, caller, author), Shorts(rs), RecipesCount(db, author)))
  }

  /** The count ignores the limit: two requests that differ only in
      `recipes_limit` report the same `recipes_count`. */
  lemma CountIgnoresLimit(db: Db, caller: Caller, author: UserId, a: LimitParam, b: LimitParam)
    requires LimitUsable(a) && LimitUsable(b)
    ensures SubscriptionView(db, caller, author, a).value.recipesCount
         == SubscriptionView(db, caller, author, b).value.recipesCount
  {
  }

  // ---------------------------------------------------------------------
  // subscribe (POST / DELETE)
  // ---------------------------------------------------------------------

  /** A response: status, the serialized author on success, and the database
      after the request. */
  datatype Reply = Reply(status: Status, body: Option<AuthorView>, db: Db)

  /** The number of rows recording that `user` follows `author`. */
  function FollowCount(db: Db, user: UserId, author: UserId): nat {
    multiset(db.subscriptions)[Follow(user, author)]
  }

  /** POST: an unknown author is 404; an invalid body is 400 (`bodyValid`
      is the outcome of SubscriptionSerializer's validation of the body,
      which must carry the author's required profile fields, so an empty
      body is refused); otherwise a row is inserted and the author is
      serialized. The insert is not undone if the serialization then fails
      (500). */
  function Subscribe(db: Db, user: UserId, author: UserId, bodyValid: bool, limit: LimitParam): (r: Reply)
    ensures author !in db.users ==> r == Reply(NotFound, None, db)
    ensures author in db.users && !bodyValid ==> r == Reply(BadRequest, None, db)
    ensures author in db.users && bodyValid ==>
              && r.db == db.(subscriptions := db.subscriptions + [Follow(user, author)])
              && FollowCount(r.db, user, author) == FollowCount(db, user, author) + 1
              && (r.status == Created <==> LimitUsable(limit))
              && (r.status != Created ==> r.status == ServerError && r.body == None)
    ensures r.status == Created ==>
              && r.body.Some?
              && r.body.value.id == author
              && r.body.value.isSubscribed
              && r.body.value.recipesCount == RecipesCount(db, author)
  {
    if author !in db.users then Reply(NotFound, None, db)
    else if !bodyValid then Reply(BadRequest, None, db)
    else
      var db' := db.(subscriptions := db.subscriptions + [Follow(user, author)]);
      assert Follow(user, author) in db'.subscriptions;
      assert AuthorRecipes(db', author) == AuthorRecipes(db, author);
      match SubscriptionView(db', Authenticated(user), author, limit)
      case Err(_) => Reply(ServerError, None, db')
      case Ok(view) => Reply(Created, Some(view), db')
  }

  /** DELETE: an unknown author is 404; no row for the pair is 404; exactly
      one row is deleted (204); more than one makes the single-row lookup
      fail (500) before anything is deleted. */
  function Unsubscribe(db: Db, user: UserId, author: UserId): (r: Reply)
    ensures r.body == None
    ensures author !in db.users || FollowCount(db, user, author) == 0 ==> r == Reply(NotFound, None, db)
    ensures FollowCount(db, user, author) > 1 && author in db.users ==> r == Reply(ServerError, None, db)
    ensures r.status == NoContent <==> author in db.users && FollowCount(db, user, author) == 1
    ensures r.status == NoContent ==>
              && !IsSubscribed(r.db, Authenticated(user), author)
              && multiset(r.db.subscriptions) == multiset(db.subscriptions) - multiset{Follow(user, author)}
              && r.db == db.(subscriptions := r.db.subscriptions)
  {
    var f := Follow(user, author);
    var count := FollowCount(db, user, author);
    if author !in db.users || count == 0 then Reply(NotFound, None, db)
    else if count > 1 then Reply(ServerError, None, db)
    else
      var rows := Rows.Remove(db.subscriptions, f);
      assert multiset(rows) == multiset(db.subscriptions) - multiset{f} by {
        forall g
          ensures multiset(rows)[g] == (multiset(db.subscriptions) - multiset{f})[g]
        {
        }
      }
      Reply(NoContent, None, db.(subscriptions := rows))
  }

  /** The action on its verb. */
  function Dispatch(db: Db, user: UserId, author: UserId, m: Method, bodyValid: bool, limit: LimitParam): (r: Reply)
    ensures r.status in {Created, NoContent, BadRequest, NotFound, ServerError}
    ensures author !in db.users ==> r == Reply(NotFound, None, db)
    ensures r.status == BadRequest || r.status == NotFound ==> r.db == db
    ensures m == Delete ==> r.status != Created && r.status != BadRequest
    ensures m == Post ==> r.status != NoContent
  {
    match m
    case Post => Subscribe(db, user, author, bodyValid, limit)
    case Delete => Unsubscribe(db, user, author)
  }

  // ---------------------------------------------------------------------
  // subscriptions (GET)
  // ---------------------------------------------------------------------

  /** The authors the user follows, one per subscription row, as the join
      over the users table yields them. */
  function FollowedAuthors(db: Db, user: UserId): (r: seq<UserId>)
    ensures forall a :: a in r <==> a in db.users && IsSubscribed(db, Authenticated(user), a)
  {
    var rows := Rows.Filter(db.subscriptions, (f: Follow) => f.user == user && f.author in db.users);
    var r := seq(|rows|, i requires 0 <= i < |rows| => rows[i].author);
    forall a
      ensures a in r <==> a in db.users && IsSubscribed(db, Authenticated(user), a)
    {
      if a in r {
        var i :| 0 <= i < |r| && r[i] == a;
        assert rows[i] in rows;
      }
      if a in db.users && IsSubscribed(db, Authenticated(user), a) {
        assert Follow(user, a) in rows;
        var i :| 0 <= i < |rows| && rows[i] == Follow(user, a);
        assert r[i] == a;
      }
    }
    r
  }

  /** Each author serialized in turn; the first failure aborts the page. */
  function Views(db: Db, caller: Caller, authors: seq<UserId>, limit: LimitParam): (r: Result<seq<AuthorView>, Status>)
    ensures r.Ok? <==> authors == [] || LimitUsable(limit)
    ensures r.Err? ==> r.error == ServerError
    ensures r.Ok? ==> |r.value| == |authors|
    ensures r.Ok? ==> forall i :: 0 <= i < |authors| ==>
                        Ok(r.value[i]) == SubscriptionView(db, caller, authors[i], limit)
  {
    if authors == [] then Ok([])
    else
      var head :- SubscriptionView(db, caller, authors[0], limit);
      Ok([head] + Views(db, caller, authors[1..], limit).value)
  }

  /** GET `subscriptions`: every followed author with its projection. */
  function ListSubscriptions(db: Db, user: UserId, limit: LimitParam): (r: Result<seq<AuthorView>, Status>)
    ensures r.Ok? <==> FollowedAuthors(db, user) == [] || LimitUsable(limit)
    ensures r.Ok? ==> |r.value| == |FollowedAuthors(db, user)|
    ensures r.Ok? ==> forall i :: 0 <= i < |r.value| ==>
                        r.value[i].id == FollowedAuthors(db, user)[i] && r.value[i].isSubscribed
  {
    var authors := FollowedAuthors(db, user);
    var r := Views(db, Authenticated(user), authors, limit);
    assert r.Ok? ==> forall i :: 0 <= i < |r.value| ==> r.value[i].id == authors[i] && r.value[i].isSubscribed by {
      if r.Ok? {
        forall i | 0 <= i < |r.value|
          ensures r.value[i].id == authors[i] && r.value[i].isSubscribed
        {
          assert Ok(r.value[i]) == SubscriptionView(db, Authenticated(user), authors[i], limit);
          assert authors[i] in authors;
        }
      }
    }
    r
  }

  /** `subscriptions` lists exactly the authors the user follows. */
  lemma ListedAuthorsAreFollowed(db: Db, user: UserId, limit: LimitParam, a: UserId)
    requires ListSubscriptions(db, user, limit).Ok?
    ensures (exists v :: v in ListSubscriptions(db, user, limit).value && v.id == a)
        <==> a in db.users && IsSubscribed(db, Authenticated(user), a)
  {
    ViewedIds(ListSubscriptions(db, user, limit).value, FollowedAuthors(db, user), a);
  }

  /** Views listed pointwise for a sequence of ids name exactly those ids. */
  lemma ViewedIds(vs: seq<AuthorView>, authors: seq<UserId>, a: UserId)
    requires |vs| == |authors|
    requires forall i :: 0 <= i < |vs| ==> vs[i].id == authors[i]
    ensures (exists v :: v in vs && v.id == a) <==> a in authors
  {
    if a in authors {
      var i :| 0 <= i < |authors| && authors[i] == a;
      assert vs[i] in vs;
    }
    if exists v :: v in vs && v.id == a {
      var v :| v in vs && v.id == a;
      var i :| 0 <= i < |vs| && vs[i] == v;
      assert authors[i] in authors;
    }
  }

  // ---------------------------------------------------------------------
  // Properties relating several requests
  // ---------------------------------------------------------------------

  /** After a successful POST the author is followed, and after a successful
      DELETE it is not. */
  lemma SubscribeThenFollowed(db: Db, user: UserId, author: UserId, m: Method, bodyValid: bool, limit: LimitParam)
    ensures var r := Dispatch(db, user, author, m, bodyValid, limit);
            && (r.status == Created ==> IsSubscribed(r.db, Authenticated(user), author))
            && (r.status == NoContent ==> !IsSubscribed(r.db, Authenticated(user), author))
  {
    var r := Dispatch(db, user, author, m, bodyValid, limit);
    if r.status == Created {
      assert Follow(user, author) in r.db.subscriptions;
    }
  }

  /** Following an author not yet followed and then unfollowing restores the
      database exactly. */
  lemma {:induction false} SubscribeThenUnsubscribeRestores(db: Db, user: UserId, author: UserId, limit: LimitParam)
    requires author in db.users && FollowCount(db, user, author) == 0
    ensures var r1 := Subscribe(db, user, author, true, limit);
            Unsubscribe(r1.db, user, author) == Reply(NoContent, None, db)
  {
    var f := Follow(user, author);
    assert f !in db.subscriptions;
    Rows.RemoveAppended(db.subscriptions, f);
  }

  /** Nothing stops a second follow of the same author; once two rows exist,
      DELETE fails with 500 and leaves both in place. */
  lemma {:induction false} DoubleSubscribeBlocksUnsubscribe(db: Db, user: UserId, author: UserId, limit: LimitParam)
    requires author in db.users && LimitUsable(limit)
    ensures var r1 := Subscribe(db, user, author, true, limit);
            var r2 := Subscribe(r1.db, user, author, true, limit);
            && r1.status == Created && r2.status == Created
            && Unsubscribe(r2.db, user, author) == Reply(ServerError, None, r2.db)
  {
    var r1 := Subscribe(db, user, author, true, limit);
    var r2 := Subscribe(r1.db, user, author, true, limit);
    assert FollowCount(r2.db, user, author) == FollowCount(db, user, author) + 2;
  }

  /** Both verbs keep every declared invariant when the caller is a user. */
  lemma DispatchKeepsWellformed(db: Db, user: UserId, author: UserId, m: Method, bodyValid: bool, limit: LimitParam)
    requires Wellformed(db) && user in db.users
    ensures Wellformed(Dispatch(db, user, author, m, bodyValid, limit).db)
  {
    var r := Dispatch(db, user, author, m, bodyValid, limit);
    if r.db != db {
      assert r.db == db.(subscriptions := r.db.subscriptions);
      forall f | f in r.db.subscriptions
        ensures f.user in db.users && f.author in db.users
      {
        if f != Follow(user, author) {
          assert multiset(r.db.subscriptions)[f] > 0;
        }
      }
    }
  }
}

=== FILE: toggle.dfy ===
/** The generic add/remove actions RecipeViewSet shares between the Favorite
    and the ShoppingCart tables (`add_to` and `delete_from` in
    backend/api/views.py). The `favorite` and `shopping_cart` actions only
    choose the table and dispatch on the HTTP verb, which `Dispatch` models. */
module Toggle {
  import opened Common
  import opened Models
  import Rows

  /** Which (user, recipe) table an action targets. */
  datatype Table = Favorites | ShoppingCart

  function EdgesOf(db: Db, t: Table): seq<Edge> {
    match t
    case Favorites => db.favorites
    case ShoppingCart => db.shoppingCart
  }

  function WithEdges(db: Db, t: Table, rows: seq<Edge>): Db {
    match t
    case Favorites => db.(favorites := rows)
    case ShoppingCart => db.(shoppingCart := rows)
  }

  /** The short recipe projection (id, name, image, cooking time) sent back
      after a successful add. */
  datatype ShortRecipe = ShortRecipe(id: RecipeId, name: string, image: string, cookingTime: int)

  function Short(r: Recipe): (s: ShortRecipe)
    ensures s.id == r.id && s.name == r.name && s.image == r.image && s.cookingTime == r.cookingTime
  {
    ShortRecipe(r.id, r.name, r.image, r.cookingTime)
  }

  /** Two recipes have the same short projection exactly when they agree on
      the four listed fields: the author, text, tags and publication date
      are left out. */
  lemma ShortAgreement(a: Recipe, b: Recipe)
    ensures Short(a) == Short(b) <==>
              a.id == b.id && a.name == b.name && a.image == b.image && a.cookingTime == b.cookingTime
  {
  }

  /** A response: its status, its body, and the database after the request. */
  datatype Reply = Reply(status: Status, body: Option<ShortRecipe>, db: Db)

  /** Every table other than t is the same in both databases. */
  predicate OnlyTableChanged(db: Db, db': Db, t: Table) {
    db' == WithEdges(db, t, EdgesOf(db', t))
  }

  /** POST: reject a pair that is already present (400), then a recipe id
      that does not exist (404); otherwise insert the pair (201) and return
      the recipe's short projection. */
  function AddTo(db: Db, t: Table, user: UserId, pk: RecipeId): (r: Reply)
    ensures Edge(user, pk) in EdgesOf(db, t) ==> r == Reply(BadRequest, None, db)
    ensures Edge(user, pk) !in EdgesOf(db, t) && pk !in RecipeIds(db.recipes) ==>
              r == Reply(NotFound, None, db)
    ensures r.status == Created <==> Edge(user, pk) !in EdgesOf(db, t) && pk in RecipeIds(db.recipes)
    ensures r.status == Created ==>
              && Edge(user, pk) in EdgesOf(r.db, t)
              && multiset(EdgesOf(r.db, t)) == multiset(EdgesOf(db, t)) + multiset{Edge(user, pk)}
              && (forall e :: e != Edge(user, pk) ==> (e in EdgesOf(r.db, t) <==> e in EdgesOf(db, t)))
              && OnlyTableChanged(db, r.db, t)
              && r.body.Some? && r.body.value.id == pk
              && (exists recipe :: recipe in db.recipes && recipe.id == pk && r.body.value == Short(recipe))
  {
    if Edge(user, pk) in EdgesOf(db, t) then
      Reply(BadRequest, None, db)
    else
      match FindRecipe(db.recipes, pk)
      case None => Reply(NotFound, None, db)
      case Some(recipe) =>
        var rows := EdgesOf(db, t) + [Edge(user, pk)];
        assert multiset(rows) == multiset(EdgesOf(db, t)) + multiset{Edge(user, pk)};
        Reply(Created, Some(Short(recipe)), WithEdges(db, t, rows))
  }

  /** DELETE: delete the pair's rows (204), or answer 400 when there are
      none. */
  function DeleteFrom(db: Db, t: Table, user: UserId, pk: RecipeId): (r: Reply)
    ensures Edge(user, pk) !in EdgesOf(db, t) ==> r == Reply(BadRequest, None, db)
    ensures r.status == NoContent <==> Edge(user, pk) in EdgesOf(db, t)
    ensures r.status == NoContent ==>
              && Edge(user, pk) !in EdgesOf(r.db, t)
              && (forall e :: e != Edge(user, pk) ==>
                    multiset(EdgesOf(r.db, t))[e] == multiset(EdgesOf(db, t))[e])
              && OnlyTableChanged(db, r.db, t)
              && r.body == None
  {
    if Edge(user, pk) in EdgesOf(db, t) then
      Reply(NoContent, None, WithEdges(db, t, Rows.Remove(EdgesOf(db, t), Edge(user, pk))))
    else
      Reply(BadRequest, None, db)
  }

  /** The `favorite` and `shopping_cart` actions: POST adds, DELETE removes. */
  function Dispatch(db: Db, t: Table, m: Method, user: UserId, pk: RecipeId): (r: Reply)
    ensures r.status in {Created, BadRequest, NotFound, NoContent}
    ensures m == Post ==> r.status != NoContent
    ensures m == Delete ==> r.status in {NoContent, BadRequest}
    ensures r.status == BadRequest || r.status == NotFound ==> r.db == db
  {
    match m
    case Post => AddTo(db, t, user, pk)
    case Delete => DeleteFrom(db, t, user, pk)
  }

  // ---------------------------------------------------------------------
  // Properties relating several requests
  // ---------------------------------------------------------------------

  /** A second identical add is rejected and changes nothing, so at most one
      row of the pair can exist. */
  lemma AddTwiceRejected(db: Db, t: Table, user: UserId, pk: RecipeId)
    requires AddTo(db, t, user, pk).status == Created
    ensures var db1 := AddTo(db, t, user, pk).db;
            AddTo(db1, t, user, pk) == Reply(BadRequest, None, db1)
            && multiset(EdgesOf(db1, t))[Edge(user, pk)] == multiset(EdgesOf(db, t))[Edge(user, pk)] + 1
  {
  }

  /** Adding an absent pair and then removing it restores the database
      exactly. */
  lemma {:induction false} AddThenRemoveRestores(db: Db, t: Table, user: UserId, pk: RecipeId)
    requires Edge(user, pk) !in EdgesOf(db, t) && pk in RecipeIds(db.recipes)
    ensures var db1 := AddTo(db, t, user, pk).db;
            DeleteFrom(db1, t, user, pk) == Reply(NoContent, None, db)
  {
    Rows.RemoveAppended(EdgesOf(db, t), Edge(user, pk));
  }

  /** add, remove, remove: the second remove is rejected. */
  lemma SecondRemoveRejected(db: Db, t: Table, user: UserId, pk: RecipeId)
    requires AddTo(db, t, user, pk).status == Created
    ensures var db1 := AddTo(db, t, user, pk).db;
            var r2 := DeleteFrom(db1, t, user, pk);
            r2.status == NoContent && DeleteFrom(r2.db, t, user, pk) == Reply(BadRequest, None, r2.db)
  {
  }

  lemma OnlyTableChangedKeepsOthers(db: Db, db': Db, t: Table)
    requires Wellformed(db) && OnlyTableChanged(db, db', t)
    requires EdgesWellformed(db', EdgesOf(db', t))
    ensures Wellformed(db')
  {
    assert db'.users == db.users && db'.recipes == db.recipes;
  }

  /** A successful add by an existing user keeps every declared invariant,
      in particular the (user, recipe) unique constraint. */
  lemma AddKeepsWellformed(db: Db, t: Table, user: UserId, pk: RecipeId)
    requires Wellformed(db) && user in db.users
    ensures Wellformed(AddTo(db, t, user, pk).db)
  {
    var r := AddTo(db, t, user, pk);
    if r.status == Created {
      Rows.AppendKeepsNoDuplicates(EdgesOf(db, t), Edge(user, pk));
      OnlyTableChangedKeepsOthers(db, r.db, t);
    }
  }

  /** A remove keeps every declared invariant; under the unique constraint it
      deletes exactly one row. */
  lemma DeleteKeepsWellformed(db: Db, t: Table, user: UserId, pk: RecipeId)
    requires Wellformed(db)
    ensures var r := DeleteFrom(db, t, user, pk);
            && Wellformed(r.db)
            && (r.status == NoContent ==>
                  multiset(EdgesOf(r.db, t)) == multiset(EdgesOf(db, t)) - multiset{Edge(user, pk)})
  {
    var r := DeleteFrom(db, t, user, pk);
    if r.status == NoContent {
      Rows.RemoveKeepsNoDuplicates(EdgesOf(db, t), Edge(user, pk));
      OnlyTableChangedKeepsOthers(db, r.db, t);
      var before, after := multiset(EdgesOf(db, t)), multiset(EdgesOf(r.db, t));
      assert before[Edge(user, pk)] == 1;
      assert after == before - multiset{Edge(user, pk)} by {
        forall e
          ensures after[e] == (before - multiset{Edge(user, pk)})[e]
        {
        }
      }
    }
  }
}
